=== FILE: README.md ===
# Copying files in lf, modelled in Dafny

This project models the copy machinery of the `lf` file manager
(`copy.go`), which is used when files are pasted:

- `copySize` computes the byte total for the progress bar by walking every
  source.
- `iocopyKnockoff` chooses a bulk transfer (`io.WriterTo` on the source,
  then `io.ReaderFrom` on the destination). When neither exists it returns
  the sentinel `-1`, which asks the caller to run its own loop.
- `copyFile` copies one regular file:
  - open, create, then a bulk transfer or a 4096-byte read/write loop;
  - close, then chmod;
  - each failure point has its own cleanup: the destination is removed or
    left as it is.
- `copyAll` runs the producer:
  - for each source it picks a collision-free destination root: `dst`, or
    else `dst.~1~`, `dst.~2~`, …;
  - it walks the source tree;
  - it creates directories, re-creates symlinks and copies regular files;
  - each failure becomes one value on the error stream, and the stream is
    closed once at the end.

The filesystem is a map from paths to entries:

- an entry is a directory, a symlink or a regular file with its bytes and
  mode;
- a failing system call comes from a set of injected faults, or from a
  natural condition of the map (for example, opening something that is not
  a regular file);
- `filepath.Walk` is a given function from a root to its list of callbacks;
  `FileSystem.WalkFits` ties it to the filesystem the copy starts from;
- every entry sits in an existing directory (`FileSystem.WellFormed`), and
  creating an entry needs its parent directory;
- the `nums` and `errs` channels become sequences, and closing `errs` is a
  final `Closed` signal.

Modules, each in its own file:

| Module | File | Contents |
|---|---|---|
| `Common` | common.dfy | `Option`, `Min` and `Sum` |
| `Paths` | paths.dfy | paths as strings; `Join`, `Base`, `Rel`; the decimal rendering of the collision suffix |
| `FileSystem` | filesystem.dfy | entries, walk items, faults; the primitives `Open`, `Create`, `Remove`, `Chmod`, `MkdirAll`, `Readlink`, `MakeSymlink` |
| `Strategy` | strategy.dfy | `iocopyKnockoff` |
| `FileCopy` | copyfile.dfy | `copyFile` |
| `Naming` | naming.dfy | the `dst.~i~` search |
| `SizeScan` | sizescan.dfy | `copySize` |
| `TreeCopy` | treecopy.dfy | `copyAll` |
| `TreeResult` | treeresult.dfy | what `copyAll` leaves on the filesystem |

The two loops of the source are written twice:

- **The fallback read/write loop.** `FileCopy.Drain` is a recursive
  function. `FileCopy.FallbackLoop` is a method with a buffer position that
  is proved to end in the same state.
- **The name search.** `Naming.DestinationFor` is the function.
  `Naming.ChooseDestination` is a `while` loop proved to return the same
  name.

## Model

| member | source | states |
|---|---|---|
| SizeScan.CopySizeSucceedsIff | copy.go:11-34 | the size scan reports no error exactly when every source exists and its walk reports no error; then the total is the sum of the sizes of every walked entry of every source, directories and symlinks included |
| SizeScan.MissingSource | copy.go:14-18 | the first missing source ends the scan with an error naming it; the total then holds only the sources before it |
| SizeScan.WalkErrorPartial | copy.go:20-30 | the first walk error ends the scan; the total covers the earlier sources plus the entries of this source before the error |
| SizeScan.WalkTotalClean | copy.go:20-26 | the walk callback over one tree reports no error exactly when the walk had no error callback, and then it adds every entry's size |
| SizeScan.WalkTotalStops | copy.go:20-23 | a walk whose first error is at index k returns the error and the sizes of the entries before k |
| Strategy.Knockoff | copy.go:38-55 | the source's WriterTo wins over the destination's ReaderFrom; with neither, the result is (-1, no error); an error is possible only on a fast path; with non-negative counts, -1 is returned exactly when there is no fast path |
| FileCopy.ChunkSizes | copy.go:58 | a file of n bytes is read in ceil(n/4096) non-empty chunks: all but the last are full, and they sum to n |
| FileCopy.DrainWritesPrefix | copy.go:89-107 | the loop writes a prefix of the source, and the whole source when it reaches end of file |
| FileCopy.DrainEvents | copy.go:98-106 | the events pushed are a prefix of the chunk sizes, and they sum to the number of bytes written |
| FileCopy.DrainedIff | copy.go:90-107 | the loop reaches end of file exactly when no read (including the final empty one) and no write fails; it then has pushed every chunk size |
| FileCopy.DrainStopsAtFault | copy.go:91-104 | an early stop happens at the first failing call; every earlier chunk was read and written, and a failed write leaves fewer bytes than the file holds |
| FileCopy.FallbackLoop | copy.go:89-107 | the loop with a buffer position stops where the recursive definition says and leaves the same events and bytes |
| FileCopy.Finish | copy.go:112-122 | close, then chmod to the source's mode; success exactly when neither fails; either failure removes the destination; events already pushed stay |
| FileCopy.LoopCopy | copy.go:89-122 | the fallback branch: a read error removes the destination; a write error leaves a partial prefix with its creation mode; on success the destination holds the bytes with the source's mode and every chunk size was pushed |
| FileCopy.CopyOpened | copy.go:81-122 | after create, a transfer error removes the destination; the fast path pushes exactly one event (the byte count) and the loop pushes a prefix of the chunk sizes; success exactly when no step on the chosen path fails |
| FileCopy.CopyFile | copy.go:57-123 | only the destination changes; an open or create failure leaves everything unchanged with no events; transfer, read, close and chmod failures remove the destination; a write failure leaves a partial prefix; success copies the bytes and the mode, with events summing to the file size, and happens exactly when no step fails |
| Naming.FreeIndexFrom | copy.go:136-139 | the search from index i finds a free name `dst.~j~` with every lower index taken, and j never exceeds the number of existing paths |
| Naming.DestinationFor | copy.go:131-141 | the chosen root never exists; it is `dst` when that is free, otherwise `dst.~i~` for the least free i |
| Naming.ChooseDestination | copy.go:133-141 | the probing loop returns a free name, the same one the least-free-index definition gives |
| Naming.NextAfterTaken | copy.go:136-141 | with dst and its first n alternatives taken and the next one free, the copy lands on `dst.~(n+1)~` |
| Naming.AsWrittenWithoutErrors | copy.go:133-140 | with no probe error, the search exactly as written picks the same root as `DestinationFor` within one probe per existing path |
| Naming.AsWrittenSpinsOnProbeError | copy.go:133-139 | when every probe fails with an error other than not-exist, the search as written finds nothing, however many probes it is given |
| Naming.SearchCorrected | copy.go:136-139 | the search that stops on a probe error ends with either a name that does not exist and probes cleanly, or the name whose probe failed |
| Naming.ChooseCorrected | copy.go:133-140 | the same for the whole choice, starting with `dst` itself |
| Naming.CorrectedSearch | copy.go:133-140 | with no probe error the corrected search picks the root `DestinationFor` gives; when `dst` cannot be probed it reports that error |
| Naming.SearchBound | copy.go:136-139 | once dst and its first i-1 alternatives are taken, at least i paths exist, so the search ends |
| Paths.DecimalRoundTrip | copy.go:137 | the decimal rendering of the index reads back to the same number |
| Paths.SuffixedInjective | copy.go:137 | distinct indices give distinct names `dst.~i~`, so the search never probes the same name twice |
| Paths.RelJoinRoundTrip | copy.go:148-153 | joining the relative path of a walked entry back onto its root gives the entry's path |
| Paths.DestinationsDistinct | copy.go:148-153 | distinct entries of one tree map to distinct destinations under any destination root |
| FileSystem.MkdirAll | copy.go:155 | an existing directory is success with no change and any other existing entry an error; a missing directory is made with the given mode after the missing directories above it (except `/`), and its success is theirs; when the path itself cannot be made, the directories already made above it stay and the path does not exist; nothing that exists changes, and everything new is a directory with that mode at or above the path |
| TreeCopy.MakeDir | copy.go:154-158 | the directory's size is pushed either way; mkdir is reported exactly when `MkdirAll` fails, and then the target is not made but directories made above it stay; otherwise an existing directory is kept as it is and a missing one is made with the walked mode; either way nothing that existed changes and the only other new entries are directories made above the target |
| TreeCopy.MakeLink | copy.go:159-167 | the symlink's size is pushed either way; symlink is reported exactly when the readlink or the symlink call fails, and then nothing changes; otherwise the destination is a new symlink with the source link's target |
| TreeCopy.CopyRegular | copy.go:168-172 | the filesystem is what `copyFile` leaves and its events stay pushed; copy is reported with its cause exactly when it fails; with no error the destination holds the source's bytes with the walked mode and the events sum to the file size |
| TreeCopy.Callback | copy.go:143-174 | per entry: a walk or relative-path error is reported and skipped; only the entry's destination can change, except that a directory entry can also make the missing directories above it; directories and symlinks push their size whatever happens; a directory is created with the walked mode (an existing one is kept, and nothing that existed changes) or mkdir is reported, keeping any directories made above it; a symlink is re-created with the same target or symlink is reported; a file leaves what `copyFile` leaves and pushes what it pushes, and copy is reported with its cause; an error is reported exactly when the mkdir, the readlink or symlink, or the file copy fails |
| TreeCopy.WalkTree | copy.go:143-174 | the walk is never cut short: nothing sent is taken back; each walk error is reported, and there is at most one error per entry |
| TreeCopy.WalkTreeAppend | copy.go:143-174 | the callback's state is all the walk carries: the run over a + b is the run over b started from the run a left |
| TreeCopy.RootFor | copy.go:131-141 | the destination root for a source is `Join(dstDir, Base(src))` made free of collisions; it does not exist when the walk starts, and it is not empty when `dstDir` is not |
| TreeCopy.CopySources | copy.go:130-175 | the sources are processed in order, each against the filesystem the earlier ones left; nothing sent is taken back, and there is at most one error per walked entry |
| TreeCopy.CopyAll | copy.go:125-181 | the error stream is closed exactly once, after every error value; there is at most one error per walked entry |
| TreeCopy.NoWalkFailures | copy.go:143-147 | a walk with no error callback is clean in the sense of the size scan |
| TreeCopy.WalkTreeParity | copy.go:143-174 | a tree copied without error pushes progress summing to the size scan's total for that walk |
| TreeCopy.CopySourcesClean | copy.go:143-147 | a copy that reports no error met no walk error in any source |
| TreeCopy.CopySourcesParity | copy.go:130-175 | over all sources, an error-free copy pushes progress summing to the total of every walk |
| TreeCopy.ProgressMatchesEstimate | copy.go:125-181 | the progress bar adds up: when the walks are those of the filesystem, the copy reports no error and each file still holds the bytes the walk reported, the sum of `nums` equals the total `copySize` returns with no error (every source exists, since a missing one would have been reported) |
| SizeScan.MissingWalkUnclean | copy.go:143-147 | a source that does not exist has a walk whose one callback is an error |
| FileCopy.CopyFileWellFormed | copy.go:57-123 | copying a file keeps every entry inside an existing directory: it creates only where the parent directory exists and removes only files |
| TreeResult.CallbackFrame | copy.go:153-172 | the callback changes no existing path but the destination of its entry, and anything new elsewhere is a directory above that destination |
| TreeResult.CallbackLands | copy.go:153-172 | an entry whose callback reports no error is in place at its destination: a directory (with the walked mode if it was made), a symlink with the source link's target, or a file with the source's bytes and the walked mode |
| TreeResult.CallbackWellFormed | copy.go:153-172 | the callback keeps every entry inside an existing directory, counting those `MkdirAll` makes on the way |
| TreeResult.WalkTreeFrame | copy.go:143-174 | the walk of a tree changes no existing path but the destinations `Join(root, Rel(src, p))` of its entries, and anything new elsewhere is a directory above one of them |
| TreeResult.WalkTreeDispatch | copy.go:143-174 | entry i reaches the callback with the run the entries before it left, whatever they reported, and the walk continues from what the callback returns |
| TreeResult.WalkTreeLands | copy.go:143-174 | an entry whose callback reports no error is still in place when its tree is done, since no other entry of the tree has the same destination |
| TreeResult.TargetsUnder | copy.go:148-153 | every destination written for a tree lies under the root chosen for it |
| TreeResult.WalkTreeWellFormed | copy.go:143-174 | the walk of a tree keeps every entry inside an existing directory |
| TreeResult.CopySourcesWellFormed | copy.go:130-175 | so does the copy of all sources |
| TreeResult.CopySourcesAppend | copy.go:130-175 | copying the sources a + b is copying b from where copying a ended |
| TreeResult.CopySourcesAt | copy.go:130-175 | the copy splits at source j into the earlier sources, the walk of source j from a root chosen against what they left, and the later sources |
| TreeResult.CopySourcesFrame | copy.go:130-175 | over all sources, no existing path changes but the destinations of walked entries, and anything new elsewhere is a directory above one of them |
| TreeResult.CopyAllFrame | copy.go:125-181 | after `copyAll`, every path that is not the destination of a walked entry holds what it held before: sources and the rest of the destination directory are untouched; the only other new entries are directories made above a destination (a missing destination directory, say) |
| TreeResult.LaterSourcesKeep | copy.go:130-141 | an entry that exists when a source's root is chosen keeps its contents through the copy of that and every later source, since each root is new and nothing can exist below it |
| TreeResult.CopyAllLands | copy.go:125-181 | every walked entry whose callback reported no error is in place at its destination when `copyAll` ends: a directory, a symlink with the source link's target, or a file with the source's bytes and the walked mode |
| TreeResult.MissingSourceReported | copy.go:143-147 | a source that cannot be walked (missing, or the empty path) puts its walk error on the error stream |

## Left out

- The goroutine, the channel capacities (1024) and back-pressure are not
  modelled. The producer is sequential, so it is a function that returns
  its final filesystem and the two streams.
- `log.Printf` calls in `iocopyKnockoff` are not modelled. They only log.
- `filepath.Join`, `filepath.Base` and `filepath.Rel` are modelled for
  clean paths: no `.` or `..` elements, no doubled separators, and no
  `Clean` applied to the result. A source written as `.` is therefore not
  modelled: `filepath.Walk(".")` yields `b` for an entry, which
  `Paths.Rel(".", "b")` rejects, so every such entry is reported as
  `relative:` where the source copies it.
- `Paths.Rel` of a path outside the root is an error (`None`), whereas
  `filepath.Rel("/a", "/b")` returns `../b`. `filepath.Walk` never yields
  such a path, so the `relative:` branch (copy.go:148-151) is not reached
  from the source's walk either.
- `os.Lstat` in the size scan and in `TreeCopy.RootFor` is modelled as
  "exists or not". Probe errors are modelled only in the separate search
  of the Findings table.
- `FileSystem.MkdirAll` never makes `/`. A symlink to a directory counts
  as a non-directory, where `os.MkdirAll` would follow it.
- `FileSystem.ParentReady`: a path with no separator (relative to the
  working directory) always has its directory. An absolute path needs `/`
  in the map.
- `FileSystem.WellFormed` does not exclude the empty path as a key. With
  `""` in the map, the size scan walks it and reports a walk error, where
  `os.Lstat("")` fails and `copySize` reports the source as missing.
- `filepath.Rel` of a root written with a trailing separator (`/a/`) is
  not modelled: `Paths.Rel` expects a root without one and rejects such a
  root's entries. A path written with one trailing separator below a root
  is taken as the root itself.
- Copying `/` itself is not modelled: `Base` gives `/`, and `Paths.Join`
  does not clean the doubled separator the join then produces.
- `Create`, `Chmod` and `Open` do not follow symlinks at the destination.
  A destination path that is a symlink to a file counts as a non-file.
- A read is modelled to return a full buffer until the last, partial chunk.
  Short reads from the OS are not modelled.
- A failing `w.Write` in the fallback loop is modelled to write nothing of
  its chunk: the destination keeps exactly the earlier chunks. A real
  failed write may have written part of the chunk first.
- The internals of `WriteTo`/`ReadFrom` (reflink, `copy_file_range`,
  sendfile) are foreign. A successful bulk transfer copies every byte and
  reports the count. A failed one is an injected fault whose partial
  writes are not tracked, since the destination is then removed anyway.
- The byte total is an unbounded integer. `int64` overflow of the total
  is not modelled.
- `os.Remove` is best effort in the source and its error is ignored. The
  model always removes the entry.
- `r.Close()` (deferred) and the missing `w.Close()` on a write error are
  handle leaks with no effect on the filesystem map, so they are not
  modelled.
- Special files (devices, pipes, sockets) are treated like regular files
  by the source. The model has only directories, symlinks and regular
  files.
- Mode bits are opaque values. They are copied, never interpreted.
- `FileCopy.CopyFile` reads the source once, at open. The case where the
  source and the destination are the same file is not modelled: there,
  `os.Create` would truncate the data being copied.
- The walk is a given snapshot of each source tree. A copy into the
  source's own tree, where the walk would see entries the copy creates, is
  not modelled.
- With real `*os.File` handles, `ReaderFrom` is always available, so the
  fallback loop is unreachable in practice. It is modelled anyway, behind
  the capability flags.
- TreeCopy.CopyAll: its own contract covers only the shape of the error
  stream. What it leaves on the filesystem is stated by
  `TreeResult.CopyAllFrame` and `TreeResult.CopyAllLands`, and what it
  pushes on `nums` by `TreeCopy.ProgressMatchesEstimate`.
- TreeCopy.WalkTree: its own contract covers only the streams. What it
  leaves on the filesystem is stated by `TreeResult.WalkTreeFrame` and
  `TreeResult.WalkTreeLands`.
- TreeResult.CopyAllLands: a symlink's target and a file's bytes are those
  the source held when its callback ran. It needs `dstDir` to be non-empty
  and the walks to be those of a well-formed starting filesystem.
- TreeCopy.ProgressMatchesEstimate: it assumes each copied file still holds
  as many bytes as the walk reported (`SizesAgree`). The walk's `Lstat`
  and the copy's read happen at different times in the source, and a
  concurrent writer can change the file in between.

## Findings

| source | as written | input that shows it | evidently intended | confidence | as-written member | corrected member |
|---|---|---|---|---|---|---|
| copy.go:133-139 | the name search loops while `!os.IsNotExist(err)`, so any other `Lstat` error counts as a taken name | `dstDir` is a regular file: every `Lstat` of `dstDir/name.~i~` fails with ENOTDIR, and the producer goroutine never ends | stop the search and report the `Lstat` error | medium, not executed | Naming.AsWrittenSpinsOnProbeError | Naming.CorrectedSearch |

=== FILE: common.dfy ===
/** Small shared vocabulary: an optional value, the minimum of two integers
    and the sum of a sequence of byte counts. */
module Common {

  /** A value that may be absent; `None` stands for a Go call that returned
      a non-nil error. */
  datatype Option<+T> = None | Some(value: T)

  function Min(a: int, b: int): int
  {
    if a < b then a else b
  }

  /** Sum of a sequence of counts, head first. */
  function Sum(s: seq<int>): int
  {
    if s == [] then 0 else s[0] + Sum(s[1..])
  }

  lemma {:induction false} SumAppend(a: seq<int>, b: seq<int>)
    ensures Sum(a + b) == Sum(a) + Sum(b)
  {
    if a == [] {
      assert a + b == b;
    } else {
      assert (a + b)[1..] == a[1..] + b;
      SumAppend(a[1..], b);
    }
  }
}

=== FILE: copyfile.dfy ===
/** `copyFile`: one regular file copied either by a bulk transfer (one
    progress event) or by the 4096-byte read/write loop (one progress event
    per non-empty chunk), followed by close and chmod, with the cleanup
    policy of each failure point. */
module FileCopy {
  import opened Common
  import opened Paths
  import opened FileSystem
  import opened Strategy

  /** Length of the loop's buffer, `make([]byte, 4096)`. */
  const BufferSize: nat := 4096

  /** The read sizes of the loop over a file of `n` bytes: full buffers and
      then the remainder, never an empty chunk. */
  function ChunkSizes(n: nat): (sizes: seq<nat>)
    ensures Sum(sizes) == n
    ensures forall i :: 0 <= i < |sizes| ==> 0 < sizes[i] <= BufferSize
    ensures forall i :: 0 <= i < |sizes| - 1 ==> sizes[i] == BufferSize
    ensures |sizes| == (n + BufferSize - 1) / BufferSize
  {
    if n == 0 then []
    else
      var k := Min(BufferSize, n);
      [k] + ChunkSizes(n - k)
  }

  /** No read fails at chunks `k..k+c` (the last one reads end of file) and
      no write fails at chunks `k..k+c-1`. */
  predicate LoopClear(env: Env, src: Path, dst: Path, k: nat, c: nat)
  {
    && (forall j :: k <= j <= k + c ==> !Fails(env, ReadOp(j), src))
    && (forall j :: k <= j < k + c ==> !Fails(env, WriteOp(j), dst))
  }

  datatype LoopEnd = Drained | ReadError | WriteError

  /** What the loop leaves behind: how it stopped, the progress events it
      pushed and the bytes it wrote. */
  datatype LoopRun = LoopRun(end: LoopEnd, events: seq<nat>, written: seq<byte>)

  /** The fallback loop over the unread bytes `rest`, `k` being the index of
      the next read. A read error stops it, an empty read ends it, and each
      chunk is written before its event is pushed and the next read made. */
  function Drain(env: Env, src: Path, dst: Path, rest: seq<byte>, k: nat): LoopRun
    decreases |rest|
  {
    if Fails(env, ReadOp(k), src) then LoopRun(ReadError, [], [])
    else if rest == [] then LoopRun(Drained, [], [])
    else
      var n := Min(BufferSize, |rest|);
      if Fails(env, WriteOp(k), dst) then LoopRun(WriteError, [], [])
      else
        var tail := Drain(env, src, dst, rest[n..], k + 1);
        LoopRun(tail.end, [n] + tail.events, rest[..n] + tail.written)
  }

  /** The loop writes a prefix of the file, and all of it when it reaches
      end of file. */
  lemma {:induction false} DrainWritesPrefix(env: Env, src: Path, dst: Path, rest: seq<byte>, k: nat)
    ensures var r := Drain(env, src, dst, rest, k);
      && |r.written| <= |rest| && r.written == rest[..|r.written|]
      && (r.end == Drained ==> r.written == rest)
    decreases |rest|
  {
    if !Fails(env, ReadOp(k), src) && rest != [] && !Fails(env, WriteOp(k), dst) {
      var n := Min(BufferSize, |rest|);
      DrainWritesPrefix(env, src, dst, rest[n..], k + 1);
      var tail := Drain(env, src, dst, rest[n..], k + 1);
      assert rest[..n] + rest[n..][..|tail.written|] == rest[..n + |tail.written|];
      assert rest[..n] + rest[n..] == rest;
    }
  }

  /** The loop pushes the sizes of the chunks it wrote: a prefix of the read
      sizes of the file, summing to the number of bytes written. */
  lemma {:induction false} DrainEvents(env: Env, src: Path, dst: Path, rest: seq<byte>, k: nat)
    ensures var r := Drain(env, src, dst, rest, k);
      && Sum(r.events) == |r.written|
      && |r.events| <= |ChunkSizes(|rest|)| && r.events == ChunkSizes(|rest|)[..|r.events|]
    decreases |rest|
  {
    if !Fails(env, ReadOp(k), src) && rest != [] && !Fails(env, WriteOp(k), dst) {
      var n := Min(BufferSize, |rest|);
      DrainEvents(env, src, dst, rest[n..], k + 1);
      var tail := Drain(env, src, dst, rest[n..], k + 1);
      var sizes := ChunkSizes(|rest|);
      assert sizes == [n] + ChunkSizes(|rest| - n);
      assert |rest[..n] + tail.written| == n + |tail.written|;
      assert ([n] + tail.events)[1..] == tail.events;
    }
  }

  /** The loop runs to end of file exactly when no read or write on the way
      fails, and then it has pushed the event of every chunk. */
  lemma {:induction false} DrainedIff(env: Env, src: Path, dst: Path, rest: seq<byte>, k: nat)
    ensures Drain(env, src, dst, rest, k).end == Drained <==> LoopClear(env, src, dst, k, |ChunkSizes(|rest|)|)
    ensures Drain(env, src, dst, rest, k).end == Drained ==> Drain(env, src, dst, rest, k).events == ChunkSizes(|rest|)
    decreases |rest|
  {
    if !Fails(env, ReadOp(k), src) && rest != [] && !Fails(env, WriteOp(k), dst) {
      var n := Min(BufferSize, |rest|);
      DrainedIff(env, src, dst, rest[n..], k + 1);
      var c := |ChunkSizes(|rest|)|;
      assert c == 1 + |ChunkSizes(|rest| - n)|;
      if LoopClear(env, src, dst, k + 1, c - 1) {
        assert LoopClear(env, src, dst, k, c);
      }
    }
  }

  /** An early stop happens at the first failing call: every chunk before it
      was read and written, and the call at the stopping index failed. */
  lemma {:induction false} DrainStopsAtFault(env: Env, src: Path, dst: Path, rest: seq<byte>, k: nat)
    ensures var r := Drain(env, src, dst, rest, k);
      && (forall j :: k <= j < k + |r.events| ==> !Fails(env, ReadOp(j), src) && !Fails(env, WriteOp(j), dst))
      && (r.end == ReadError ==> Fails(env, ReadOp(k + |r.events|), src))
      && (r.end == WriteError ==> |r.written| < |rest| && Fails(env, WriteOp(k + |r.events|), dst))
    decreases |rest|
  {
    if !Fails(env, ReadOp(k), src) && rest != [] && !Fails(env, WriteOp(k), dst) {
      var n := Min(BufferSize, |rest|);
      DrainStopsAtFault(env, src, dst, rest[n..], k + 1);
    }
  }

  /** A run preceded by chunks already handled. */
  function Prepend(events: seq<nat>, written: seq<byte>, r: LoopRun): LoopRun
  {
    LoopRun(r.end, events + r.events, written + r.written)
  }

  lemma PrependTwice(e1: seq<nat>, w1: seq<byte>, e2: seq<nat>, w2: seq<byte>, r: LoopRun)
    ensures Prepend(e1, w1, Prepend(e2, w2, r)) == Prepend(e1 + e2, w1 + w2, r)
  {
    assert e1 + (e2 + r.events) == (e1 + e2) + r.events;
    assert w1 + (w2 + r.written) == (w1 + w2) + r.written;
  }

  /** One turn of the loop at buffer position `pos`. */
  lemma DrainStep(env: Env, src: Path, dst: Path, data: seq<byte>, pos: nat, k: nat)
    requires pos < |data|
    requires !Fails(env, ReadOp(k), src) && !Fails(env, WriteOp(k), dst)
    ensures var n := Min(BufferSize, |data| - pos);
      Drain(env, src, dst, data[pos..], k)
        == Prepend([n], data[pos..pos + n], Drain(env, src, dst, data[pos + n..], k + 1))
  {
    var n := Min(BufferSize, |data| - pos);
    assert data[pos..][n..] == data[pos + n..];
    assert data[pos..][..n] == data[pos..pos + n];
  }

  /** The loop as the source writes it, with a buffer position, proved to
      stop where `Drain` says and to leave what it says. */
  method FallbackLoop(env: Env, src: Path, dst: Path, data: seq<byte>)
    returns (end: LoopEnd, events: seq<nat>, written: seq<byte>)
    ensures LoopRun(end, events, written) == Drain(env, src, dst, data, 0)
  {
    var pos := 0;
    var k := 0;
    events := [];
    written := [];
    while true
      invariant pos <= |data| && |events| == k && written == data[..pos]
      invariant Drain(env, src, dst, data, 0) == Prepend(events, written, Drain(env, src, dst, data[pos..], k))
      decreases |data| - pos
    {
      if Fails(env, ReadOp(k), src) {
        end := ReadError;
        assert events + [] == events && written + [] == written;
        return;
      }
      var n := Min(BufferSize, |data| - pos);
      if n == 0 {
        end := Drained;
        assert events + [] == events && written + [] == written;
        return;
      }
      if Fails(env, WriteOp(k), dst) {
        end := WriteError;
        assert events + [] == events && written + [] == written;
        return;
      }
      DrainStep(env, src, dst, data, pos, k);
      PrependTwice(events, written, [n], data[pos..pos + n], Drain(env, src, dst, data[pos + n..], k + 1));
      assert data[..pos] + data[pos..pos + n] == data[..pos + n];
      written := written + data[pos..pos + n];
      events := events + [n];
      pos := pos + n;
      k := k + 1;
    }
  }

  datatype FileError =
    | OpenFailed | CreateFailed | TransferFailed | ReadFailed | WriteFailed | CloseFailed | ChmodFailed

  /** The destination filesystem, the progress events pushed, and the error
      returned (if any). */
  datatype FileCopy = FileCopy(fs: FS, progress: seq<nat>, err: Option<FileError>)

  /** Whether either handle offers a bulk transfer. */
  predicate HasFastPath(caps: Caps)
  {
    caps.writerTo || caps.readerFrom
  }

  /** The foreign bulk transfer: it copies every byte and reports the count,
      unless a fault is injected for it. */
  function BulkTransfer(env: Env, src: Path, data: seq<byte>): Transfer
  {
    if Fails(env, TransferOp, src) then Transfer(0, true) else Transfer(|data|, false)
  }

  /** Close the destination, then give it the source's mode; either failure
      removes the destination. Events already pushed stay pushed. */
  function Finish(fs: FS, env: Env, dst: Path, mode: Mode, progress: seq<nat>): (r: FileCopy)
    requires dst in fs
    ensures r.progress == progress
    ensures r.err == None <==> !Fails(env, CloseOp, dst) && !Fails(env, ChmodOp, dst)
    ensures r.err == None ==> r.fs == fs[dst := fs[dst].(mode := mode)]
    ensures r.err != None ==> r.fs == fs - {dst} && (r.err == Some(CloseFailed) || r.err == Some(ChmodFailed))
  {
    if Fails(env, CloseOp, dst) then FileCopy(Remove(fs, dst), progress, Some(CloseFailed))
    else match Chmod(fs, env, dst, mode)
      case None => FileCopy(Remove(fs, dst), progress, Some(ChmodFailed))
      case Some(fs') => FileCopy(fs', progress, None)
  }

  /** The fallback branch, from the freshly created (empty) destination on:
      the loop, then close and chmod unless the loop failed. A failed read
      removes the destination; a failed write returns at once, leaving it. */
  function LoopCopy(fs: FS, env: Env, src: Path, dst: Path, mode: Mode, data: seq<byte>): (r: FileCopy)
    requires dst in fs && fs[dst].File?
    ensures r.fs - {dst} == fs - {dst}
    ensures r.err != Some(OpenFailed) && r.err != Some(CreateFailed) && r.err != Some(TransferFailed)
    ensures r.err == Some(ReadFailed) || r.err == Some(CloseFailed) || r.err == Some(ChmodFailed) ==>
              r.fs == fs - {dst}
    ensures r.err == Some(WriteFailed) ==>
              && dst in r.fs && r.fs[dst].File? && r.fs[dst].mode == fs[dst].mode
              && |r.fs[dst].data| < |data| && r.fs[dst].data == data[..|r.fs[dst].data|]
    ensures r.err == None ==> r.fs == fs[dst := File(data, mode)] && r.progress == ChunkSizes(|data|)
    ensures r.err == None <==>
              LoopClear(env, src, dst, 0, |ChunkSizes(|data|)|)
              && !Fails(env, CloseOp, dst) && !Fails(env, ChmodOp, dst)
    ensures |r.progress| <= |ChunkSizes(|data|)| && r.progress == ChunkSizes(|data|)[..|r.progress|]
  {
    var run := Drain(env, src, dst, data, 0);
    DrainWritesPrefix(env, src, dst, data, 0);
    DrainEvents(env, src, dst, data, 0);
    DrainedIff(env, src, dst, data, 0);
    var fs2 := fs[dst := fs[dst].(data := run.written)];
    match run.end
    case ReadError => FileCopy(Remove(fs2, dst), run.events, Some(ReadFailed))
    case WriteError =>
      DrainStopsAtFault(env, src, dst, data, 0);
      FileCopy(fs2, run.events, Some(WriteFailed))
    case Drained => Finish(fs2, env, dst, mode, run.events)
  }

  /** Everything after `os.Create`: the strategy choice of `iocopyKnockoff`,
      then the bulk transfer or the loop. */
  function CopyOpened(fs: FS, env: Env, src: Path, dst: Path, mode: Mode, data: seq<byte>): (r: FileCopy)
    requires dst in fs && fs[dst].File?
    ensures r.fs - {dst} == fs - {dst}
    ensures r.err != Some(OpenFailed) && r.err != Some(CreateFailed)
    ensures (|| r.err == Some(TransferFailed) || r.err == Some(ReadFailed)
             || r.err == Some(CloseFailed) || r.err == Some(ChmodFailed)) ==> r.fs == fs - {dst}
    ensures r.err == Some(WriteFailed) ==>
              && !HasFastPath(env.caps)
              && dst in r.fs && r.fs[dst].File? && r.fs[dst].mode == fs[dst].mode
              && |r.fs[dst].data| < |data| && r.fs[dst].data == data[..|r.fs[dst].data|]
    ensures r.err == None ==> r.fs == fs[dst := File(data, mode)] && Sum(r.progress) == |data|
    ensures r.err == Some(TransferFailed) ==> HasFastPath(env.caps)
    ensures r.err == Some(ReadFailed) ==> !HasFastPath(env.caps)
    ensures HasFastPath(env.caps) ==> r.progress == (if Fails(env, TransferOp, src) then [] else [|data|])
    ensures !HasFastPath(env.caps) ==>
              |r.progress| <= |ChunkSizes(|data|)| && r.progress == ChunkSizes(|data|)[..|r.progress|]
    ensures !HasFastPath(env.caps) && r.err == None ==> r.progress == ChunkSizes(|data|)
    ensures r.err == None <==>
              && (HasFastPath(env.caps) ==> !Fails(env, TransferOp, src))
              && (!HasFastPath(env.caps) ==> LoopClear(env, src, dst, 0, |ChunkSizes(|data|)|))
              && !Fails(env, CloseOp, dst) && !Fails(env, ChmodOp, dst)
  {
    var transfer := BulkTransfer(env, src, data);
    var t := Knockoff(env.caps, transfer, transfer);
    if t.failed then FileCopy(Remove(fs, dst), [], Some(TransferFailed))
    else if t.written == -1 then LoopCopy(fs, env, src, dst, mode, data)
    else Finish(fs[dst := fs[dst].(data := data)], env, dst, mode, [t.written])
  }

  /** `copyFile`: open the source, create the destination, then copy. */
  function CopyFile(fs: FS, env: Env, src: Path, dst: Path, info: Info): (r: FileCopy)
    // only the destination can change
    ensures r.fs - {dst} == fs - {dst}
    // failures before anything is created leave no trace
    ensures r.err == Some(OpenFailed) <==> Open(fs, env, src).None?
    ensures r.err == Some(OpenFailed) || r.err == Some(CreateFailed) ==> r.fs == fs && r.progress == []
    // a failed transfer, read, close or chmod removes the destination
    ensures (|| r.err == Some(TransferFailed) || r.err == Some(ReadFailed)
             || r.err == Some(CloseFailed) || r.err == Some(ChmodFailed)) ==> r.fs == fs - {dst}
    // a failed write leaves the partial, unclosed, un-chmodded destination
    ensures r.err == Some(WriteFailed) ==>
              && src in fs && fs[src].File? && dst in r.fs && r.fs[dst].File?
              && r.fs[dst].mode == (if dst in fs then fs[dst].mode else CreateMode)
              && |r.fs[dst].data| < |fs[src].data|
              && r.fs[dst].data == fs[src].data[..|r.fs[dst].data|]
    // success: the destination holds the source bytes with the source's mode
    ensures r.err == None ==>
              && src in fs && fs[src].File?
              && r.fs == fs[dst := File(fs[src].data, info.mode)]
              && Sum(r.progress) == |fs[src].data|
    // the path taken decides which failures are possible and the events pushed
    ensures r.err == Some(TransferFailed) ==> HasFastPath(env.caps)
    ensures r.err == Some(ReadFailed) || r.err == Some(WriteFailed) ==> !HasFastPath(env.caps)
    ensures HasFastPath(env.caps) && r.progress != [] ==> src in fs && r.progress == [fs[src].Size()]
    ensures HasFastPath(env.caps) && r.err == None ==> |r.progress| == 1
    ensures !HasFastPath(env.caps) && r.progress != [] ==>
              && src in fs && fs[src].File? && |r.progress| <= |ChunkSizes(|fs[src].data|)|
              && r.progress == ChunkSizes(|fs[src].data|)[..|r.progress|]
    ensures !HasFastPath(env.caps) && r.err == None ==> r.progress == ChunkSizes(|fs[src].data|)
    // and it succeeds exactly when no step on its path fails
    ensures r.err == None <==>
              && Open(fs, env, src).Some?
              && Create(fs, env, dst).Some?
              && (HasFastPath(env.caps) ==> !Fails(env, TransferOp, src))
              && (!HasFastPath(env.caps) ==> LoopClear(env, src, dst, 0, |ChunkSizes(|fs[src].data|)|))
              && !Fails(env, CloseOp, dst) && !Fails(env, ChmodOp, dst)
  {
    match Open(fs, env, src)
    case None => FileCopy(fs, [], Some(OpenFailed))
    case Some(data) =>
      match Create(fs, env, dst)
      case None => FileCopy(fs, [], Some(CreateFailed))
      case Some(fs1) => CopyOpened(fs1, env, src, dst, info.mode, data)
  }

  /** A file copy keeps every directory and creates its destination only
      where `os.Create` found the directory to hold it, so a well-formed
      filesystem stays well-formed. */
  lemma CopyFileWellFormed(fs: FS, env: Env, src: Path, dst: Path, info: Info)
    requires WellFormed(fs)
    ensures WellFormed(CopyFile(fs, env, src, dst, info).fs)
  {
    var r := CopyFile(fs, env, src, dst, info);
    if Open(fs, env, src).Some? && Create(fs, env, dst).Some? {
      var fs1 := Create(fs, env, dst).value;
      GrowsWellFormed(fs, fs1);
      assert r == CopyOpened(fs1, env, src, dst, info.mode, Open(fs, env, src).value);
      assert Grows(fs1, r.fs);
      GrowsWellFormed(fs1, r.fs);
    }
  }
}

=== FILE: filesystem.dfy ===
/** The abstract filesystem the copier works on, and the operating-system
    primitives it calls, as total functions over that filesystem.

    A failure of a primitive comes from one of two places: a natural
    condition of the map (opening a path that is not a regular file,
    creating a symlink over an existing path, ...) or an injected fault
    listed in the environment, which stands for everything the map does
    not record (permissions, a full disk, I/O errors). */
module FileSystem {
  import opened Common
  import opened Paths

  newtype byte = x: int | 0 <= x < 256

  /** Permission bits; carried and copied, never interpreted. */
  type Mode = nat

  /** Mode of a file freshly made by `os.Create` (0666). */
  const CreateMode: Mode := 438
  /** Mode of a freshly made symlink (0777). */
  const LinkMode: Mode := 511
  /** Size the system reports for a freshly made directory. */
  const NewDirSize: nat := 4096

  datatype Entry =
    | Dir(dirSize: nat, mode: Mode)
    | Symlink(target: Path, mode: Mode)
    | File(data: seq<byte>, mode: Mode)
  {
    /** What `Lstat(..).Size()` reports for the entry. */
    function Size(): nat
    {
      match this
      case Dir(s, _) => s
      case Symlink(t, _) => |t|
      case File(d, _) => |d|
    }
  }

  type FS = map<Path, Entry>

  /** The part of `os.FileInfo` the copier inspects. */
  datatype Kind = Directory | Link | Regular
  datatype Info = Info(kind: Kind, size: nat, mode: Mode)

  /** The metadata `Lstat` reports for an entry. */
  function InfoOf(e: Entry): (i: Info)
    ensures i.size == e.Size() && i.mode == e.mode
    ensures i.kind == Directory <==> e.Dir?
    ensures i.kind == Link <==> e.Symlink?
  {
    match e
    case Dir(_, m) => Info(Directory, e.Size(), m)
    case Symlink(_, m) => Info(Link, e.Size(), m)
    case File(_, m) => Info(Regular, e.Size(), m)
  }

  /** One callback of `filepath.Walk`: an entry with the metadata the walk
      read, or an error it reports at a path (a root that cannot be
      `Lstat`ed, a directory that cannot be listed). */
  datatype WalkItem = Visit(path: Path, info: Info) | WalkFailure(path: Path)

  /** The traversal primitive: the callbacks `filepath.Walk(root, ..)` makes,
      parent before children, siblings in lexical order. */
  type Walker = Path -> seq<WalkItem>

  /** The calls that can fail; reads and writes are numbered by chunk. */
  datatype Op =
    | OpenOp | CreateOp | TransferOp | ReadOp(chunk: nat) | WriteOp(chunk: nat)
    | CloseOp | ChmodOp | MkdirOp | ReadlinkOp | SymlinkOp

  datatype Fault = Fault(op: Op, path: Path)

  /** Whether the source handle offers `io.WriterTo` and the destination
      handle offers `io.ReaderFrom`. */
  datatype Caps = Caps(writerTo: bool, readerFrom: bool)

  datatype Env = Env(caps: Caps, faults: set<Fault>)

  predicate Fails(env: Env, op: Op, p: Path)
  {
    Fault(op, p) in env.faults
  }

  /** The directory that would hold `p` exists (a top-level path always
      has one). */
  predicate ParentReady(fs: FS, p: Path)
  {
    Parent(p).None? || (Parent(p).value in fs && fs[Parent(p).value].Dir?)
  }

  /** Every entry sits in an existing directory, as on a real filesystem. */
  predicate WellFormed(fs: FS)
  {
    forall p :: p in fs ==> ParentReady(fs, p)
  }

  /** `fs'` keeps every directory of `fs`, and each entry it adds sits in
      a directory of `fs'`. */
  predicate Grows(fs: FS, fs': FS)
  {
    && (forall p :: p in fs && fs[p].Dir? ==> p in fs' && fs'[p].Dir?)
    && (forall p :: p in fs' && p !in fs ==> ParentReady(fs', p))
  }

  /** A change that only grows a well-formed filesystem keeps it well-formed. */
  lemma GrowsWellFormed(fs: FS, fs': FS)
    requires WellFormed(fs) && Grows(fs, fs')
    ensures WellFormed(fs')
  {
    forall p | p in fs'
      ensures ParentReady(fs', p)
    {
      if p in fs {
        assert ParentReady(fs, p);
      }
    }
  }

  /** Every entry of `fs` is still in `fs'`, unchanged. */
  predicate Keeps(fs: FS, fs': FS)
  {
    forall q :: q in fs ==> q in fs' && fs'[q] == fs[q]
  }

  /** In a well-formed filesystem an entry's whole tree root exists: no
      entry lives below a missing directory. */
  lemma {:induction false} AncestorPresent(fs: FS, root: Path, p: Path)
    requires WellFormed(fs) && root != "" && Under(root, p) && p in fs
    ensures root in fs
    decreases |p|
  {
    if p != root {
      ParentUnder(root, p);
      assert ParentReady(fs, p);
      AncestorPresent(fs, root, Parent(p).value);
    }
  }

  /** `os.Open` followed by reading the whole content: the bytes of a
      regular file, or an error. */
  function Open(fs: FS, env: Env, p: Path): (r: Option<seq<byte>>)
    ensures r.Some? <==> !Fails(env, OpenOp, p) && p in fs && fs[p].File?
    ensures r.Some? ==> r.value == fs[p].data
  {
    if Fails(env, OpenOp, p) || p !in fs || !fs[p].File? then None else Some(fs[p].data)
  }

  /** `os.Create`: truncates an existing regular file (keeping its mode) or
      makes an empty one; it fails when the directory to hold it is missing. */
  function Create(fs: FS, env: Env, p: Path): (r: Option<FS>)
    ensures r.Some? <==> !Fails(env, CreateOp, p) && (p in fs ==> fs[p].File?) && ParentReady(fs, p)
    ensures r.Some? ==> r.value == fs[p := File([], if p in fs then fs[p].mode else CreateMode)]
    ensures r.Some? ==> Grows(fs, r.value)
  {
    if Fails(env, CreateOp, p) || (p in fs && !fs[p].File?) || !ParentReady(fs, p) then None
    else Some(fs[p := File([], if p in fs then fs[p].mode else CreateMode)])
  }

  /** `os.Remove`, best effort: its own failure is never observed. */
  function Remove(fs: FS, p: Path): (r: FS)
    ensures p !in r && forall q :: q in fs && q != p ==> q in r && r[q] == fs[q]
    ensures r.Keys == fs.Keys - {p}
    ensures !(p in fs && fs[p].Dir?) ==> Grows(fs, r)
  {
    fs - {p}
  }

  /** `os.Chmod` on an existing entry. */
  function Chmod(fs: FS, env: Env, p: Path, m: Mode): (r: Option<FS>)
    ensures r.Some? <==> !Fails(env, ChmodOp, p) && p in fs
    ensures r.Some? ==> r.value == fs[p := fs[p].(mode := m)]
    ensures r.Some? ==> Grows(fs, r.value)
  {
    if Fails(env, ChmodOp, p) || p !in fs then None else Some(fs[p := fs[p].(mode := m)])
  }

  /** What `os.MkdirAll` leaves behind, and whether it reported success:
      directories it made before failing stay. */
  datatype Mkdirs = Mkdirs(fs: FS, ok: bool)

  /** `os.MkdirAll`: an existing directory is success with no change, any
      other existing entry is an error; otherwise a missing directory
      holding `p` is made first, the same way and with the same mode
      (except `/`, which it never makes), and then `p`. A failure keeps
      whatever was made above `p` before it. */
  function MkdirAll(fs: FS, env: Env, p: Path, m: Mode): (r: Mkdirs)
    // success for an existing path, and for a path whose directory exists
    ensures p in fs ==> r.fs == fs && (r.ok <==> fs[p].Dir?)
    ensures p !in fs && ParentReady(fs, p) ==> (r.ok <==> !Fails(env, MkdirOp, p))
    ensures p !in fs && ParentReady(fs, p) && !r.ok ==> r.fs == fs
    // a missing directory above is made first, and its failure is this one's
    ensures p !in fs && Parent(p).Some? && Parent(p).value !in fs ==>
              (r.ok <==> && !Fails(env, MkdirOp, p) && Parent(p).value != [Separator]
                         && MkdirAll(fs, env, Parent(p).value, m).ok)
    // the directories made above stay, whether or not `p` itself is made
    ensures p !in fs && Parent(p).Some? && Parent(p).value != [Separator] && Parent(p).value !in fs ==>
              var up := MkdirAll(fs, env, Parent(p).value, m);
              r.fs == (if r.ok then up.fs[p := Dir(NewDirSize, m)] else up.fs)
    ensures p !in fs && Parent(p).Some? && Parent(p).value in fs && !fs[Parent(p).value].Dir? ==>
              !r.ok && r.fs == fs
    ensures r.ok ==> p in r.fs && r.fs[p].Dir?
    ensures r.ok && p !in fs ==> r.fs[p] == Dir(NewDirSize, m)
    ensures !r.ok && p !in fs ==> p !in r.fs
    // nothing that exists changes; only `p` and missing directories above it are made
    ensures Keeps(fs, r.fs)
    ensures MadeAbove(fs, r.fs, p, m)
    ensures Grows(fs, r.fs)
    decreases |p|
  {
    if p in fs then Mkdirs(fs, fs[p].Dir?)
    else
      var above :=
        if Parent(p).Some? && Parent(p).value != [Separator] && Parent(p).value !in fs
        then MkdirAll(fs, env, Parent(p).value, m)
        else Mkdirs(fs, true);
      AboveMade(fs, above.fs, p, m);
      if !above.ok || Fails(env, MkdirOp, p) || !ParentReady(above.fs, p) then Mkdirs(above.fs, false)
      else
        AddDir(fs, above.fs, p, m);
        Mkdirs(above.fs[p := Dir(NewDirSize, m)], true)
  }

  /** Every entry `fs'` adds to `fs` is a directory with mode `m` at `p` or
      above it. */
  ghost predicate MadeAbove(fs: FS, fs': FS, p: Path, m: Mode)
  {
    forall q :: q in fs' && q !in fs ==> fs'[q] == Dir(NewDirSize, m) && Under(q, p)
  }

  /** What the directories made above `p` are, seen from `p`. */
  lemma AboveMade(fs: FS, fs': FS, p: Path, m: Mode)
    requires if Parent(p).Some? && Parent(p).value != [Separator] && Parent(p).value !in fs
             then MadeAbove(fs, fs', Parent(p).value, m) else fs' == fs
    ensures forall q :: q in fs' && q !in fs ==> fs'[q] == Dir(NewDirSize, m) && Under(q, p) && q != p
  {
    if Parent(p).Some? && Parent(p).value != [Separator] && Parent(p).value !in fs {
      var d := Parent(p).value;
      forall q | q in fs' && q !in fs
        ensures Under(q, p) && q != p
      {
        ParentContains(p);
        UnderTransitive(q, d, p);
        assert |q| <= |d|;
      }
    }
  }

  /** The last step of `MkdirAll`: `p` made once the directories above it
      are there. */
  lemma AddDir(fs: FS, fs': FS, p: Path, m: Mode)
    requires p !in fs && Keeps(fs, fs') && Grows(fs, fs') && ParentReady(fs', p)
    requires forall q :: q in fs' && q !in fs ==> fs'[q] == Dir(NewDirSize, m) && Under(q, p) && q != p
    ensures var r := fs'[p := Dir(NewDirSize, m)];
      Keeps(fs, r) && Grows(fs, r) && MadeAbove(fs, r, p, m)
  {
    var r := fs'[p := Dir(NewDirSize, m)];
    forall q | q in r && q !in fs
      ensures ParentReady(r, q)
    {
      if q != p {
        assert ParentReady(fs', q);
      }
    }
  }

  /** `os.Readlink`. */
  function Readlink(fs: FS, env: Env, p: Path): (r: Option<Path>)
    ensures r.Some? <==> !Fails(env, ReadlinkOp, p) && p in fs && fs[p].Symlink?
    ensures r.Some? ==> r.value == fs[p].target
  {
    if Fails(env, ReadlinkOp, p) || p !in fs || !fs[p].Symlink? then None else Some(fs[p].target)
  }

  /** `os.Symlink(target, p)`: fails when `p` already exists or the
      directory to hold it is missing. */
  function MakeSymlink(fs: FS, env: Env, target: Path, p: Path): (r: Option<FS>)
    ensures r.Some? <==> !Fails(env, SymlinkOp, p) && p !in fs && ParentReady(fs, p)
    ensures r.Some? ==> r.value == fs[p := Symlink(target, LinkMode)]
    ensures r.Some? ==> Grows(fs, r.value)
  {
    if Fails(env, SymlinkOp, p) || p in fs || !ParentReady(fs, p) then None
    else Some(fs[p := Symlink(target, LinkMode)])
  }

  /** A walk of the tree at `src`: every visited path lies in the tree (the
      relative path `.` only for the root itself), and no path is visited
      twice. */
  predicate WalkUnder(src: Path, items: seq<WalkItem>)
  {
    && (forall j :: 0 <= j < |items| && items[j].Visit? ==>
          Rel(src, items[j].path).Some? && (Rel(src, items[j].path).value == "." ==> items[j].path == src))
    && (forall a, b :: 0 <= a < b < |items| && items[a].Visit? && items[b].Visit? ==>
          items[a].path != items[b].path)
  }

  /** The walker agrees with `fs` as `filepath.Walk` does: a root that
      cannot be `Lstat`ed (the empty path, a missing path) gives one error
      callback; a root directory that cannot be read may give just that
      error too; otherwise an existing root is visited first, with the
      metadata of its entry, followed by paths of its tree. */
  ghost predicate WalkFits(fs: FS, walk: Walker)
  {
    forall root ::
      && (root == "" || root !in fs ==> walk(root) == [WalkFailure(root)])
      && (root != "" && root in fs ==>
            || (fs[root].Dir? && walk(root) == [WalkFailure(root)])
            || (&& |walk(root)| >= 1 && walk(root)[0] == Visit(root, InfoOf(fs[root]))
                && WalkUnder(root, walk(root))))
  }
}

=== FILE: naming.dfy ===
/** The collision-free destination root of one source tree: `dst` itself
    when nothing exists there, otherwise `dst.~i~` for the least `i >= 1`
    with nothing there. The search ends because the candidate names are
    pairwise distinct and only finitely many paths exist. */
module Naming {
  import opened Common
  import opened Paths

  /** The candidates tried before index `i`: `dst.~1~` up to `dst.~(i-1)~`. */
  function Candidates(dst: Path, i: nat): set<Path>
  {
    if i <= 1 then {} else Candidates(dst, i - 1) + {Suffixed(dst, i - 1)}
  }

  lemma {:induction false} CandidatesShape(dst: Path, i: nat)
    ensures |Candidates(dst, i)| == if i <= 1 then 0 else i - 1
    ensures forall j :: j >= i ==> Suffixed(dst, j) !in Candidates(dst, i)
    ensures dst !in Candidates(dst, i)
  {
    if i > 1 {
      CandidatesShape(dst, i - 1);
      forall j | j >= i
        ensures Suffixed(dst, j) != Suffixed(dst, i - 1)
      {
        if Suffixed(dst, j) == Suffixed(dst, i - 1) {
          SuffixedInjective(dst, j, i - 1);
        }
      }
    }
  }

  lemma {:induction false} CandidatesTaken(taken: set<Path>, dst: Path, i: nat)
    requires forall m :: 1 <= m < i ==> Suffixed(dst, m) in taken
    ensures Candidates(dst, i) <= taken
  {
    if i > 1 {
      CandidatesTaken(taken, dst, i - 1);
    }
  }

  /** Once `dst` and the `i - 1` first candidates are all taken, at least
      `i` paths exist: the search index never passes the number of paths. */
  lemma SearchBound(taken: set<Path>, dst: Path, i: nat)
    requires i >= 1 && dst in taken
    requires forall m :: 1 <= m < i ==> Suffixed(dst, m) in taken
    ensures i <= |taken|
  {
    CandidatesShape(dst, i);
    CandidatesTaken(taken, dst, i);
    var used := Candidates(dst, i) + {dst};
    assert |used| == i;
    assert taken == used + (taken - used);
  }

  /** The least free index from `i` on, all smaller ones being taken. */
  function FreeIndexFrom(taken: set<Path>, dst: Path, i: nat): (j: nat)
    requires i >= 1 && dst in taken
    requires forall m :: 1 <= m < i ==> Suffixed(dst, m) in taken
    ensures i <= j <= |taken|
    ensures Suffixed(dst, j) !in taken
    ensures forall m :: 1 <= m < j ==> Suffixed(dst, m) in taken
    decreases |taken| - i
  {
    SearchBound(taken, dst, i);
    if Suffixed(dst, i) !in taken then i
    else
      SearchBound(taken, dst, i + 1);
      FreeIndexFrom(taken, dst, i + 1)
  }

  /** The destination root chosen for `dst` when `taken` are the existing paths. */
  function DestinationFor(taken: set<Path>, dst: Path): (p: Path)
    ensures p !in taken
    ensures dst !in taken ==> p == dst
    ensures dst in taken ==>
              exists i :: 1 <= i <= |taken| && p == Suffixed(dst, i)
                          && forall m :: 1 <= m < i ==> Suffixed(dst, m) in taken
  {
    if dst !in taken then dst else Suffixed(dst, FreeIndexFrom(taken, dst, 1))
  }

  /** The search as the source writes it: probe `dst.~1~`, `dst.~2~`, ...
      until one does not exist. */
  method ChooseDestination(taken: set<Path>, dst: Path) returns (p: Path)
    ensures p !in taken
    ensures p == DestinationFor(taken, dst)
  {
    p := dst;
    if dst in taken {
      var i := 1;
      SearchBound(taken, dst, i);
      p := Suffixed(dst, i);
      while p in taken
        invariant 1 <= i <= |taken|
        invariant p == Suffixed(dst, i)
        invariant forall m :: 1 <= m < i ==> Suffixed(dst, m) in taken
        decreases |taken| - i
      {
        SearchBound(taken, dst, i + 1);
        i := i + 1;
        p := Suffixed(dst, i);
      }
      assert FreeIndexFrom(taken, dst, 1) == i;
    }
  }

  /** With `dst` and its first `n` alternatives taken and the next one free,
      the copy lands on `dst.~(n+1)~`. */
  lemma NextAfterTaken(taken: set<Path>, dst: Path, n: nat)
    requires dst in taken
    requires forall m :: 1 <= m <= n ==> Suffixed(dst, m) in taken
    requires Suffixed(dst, n + 1) !in taken
    ensures DestinationFor(taken, dst) == Suffixed(dst, n + 1)
  {
  }

  /** What `os.Lstat` says about a path: not-exist, an entry, or another
      error (ENOTDIR when a parent is a regular file, EACCES, ...). */
  datatype Probe = Missing | Present | ProbeError

  /** The probe when `taken` are the existing paths and `failing` the paths
      whose `Lstat` fails with an error other than not-exist. */
  function ProbeOf(taken: set<Path>, failing: Path -> bool, p: Path): Probe
  {
    if failing(p) then ProbeError else if p in taken then Present else Missing
  }

  /** The search exactly as written: it goes on while the probe is not
      not-exist, so a probe error counts as a taken name. `fuel` bounds the
      number of probes, and `None` means they ran out. */
  function SearchAsWritten(taken: set<Path>, failing: Path -> bool, dst: Path, i: nat, fuel: nat): Option<Path>
    decreases fuel
  {
    if fuel == 0 then None
    else if ProbeOf(taken, failing, Suffixed(dst, i)) == Missing then Some(Suffixed(dst, i))
    else SearchAsWritten(taken, failing, dst, i + 1, fuel - 1)
  }

  function ChooseAsWritten(taken: set<Path>, failing: Path -> bool, dst: Path, fuel: nat): Option<Path>
  {
    if ProbeOf(taken, failing, dst) == Missing then Some(dst) else SearchAsWritten(taken, failing, dst, 1, fuel)
  }

  lemma {:induction false} SearchAsWrittenFree(taken: set<Path>, dst: Path, i: nat, fuel: nat)
    requires i >= 1 && dst in taken
    requires forall m :: 1 <= m < i ==> Suffixed(dst, m) in taken
    requires fuel > |taken| - i
    ensures SearchAsWritten(taken, p => false, dst, i, fuel) == Some(Suffixed(dst, FreeIndexFrom(taken, dst, i)))
    decreases fuel
  {
    SearchBound(taken, dst, i);
    if Suffixed(dst, i) in taken {
      SearchBound(taken, dst, i + 1);
      SearchAsWrittenFree(taken, dst, i + 1, fuel - 1);
    }
  }

  /** Without probe errors, the search as written picks the same root as
      `DestinationFor` within one probe per existing path. */
  lemma AsWrittenWithoutErrors(taken: set<Path>, dst: Path)
    ensures ChooseAsWritten(taken, p => false, dst, |taken|) == Some(DestinationFor(taken, dst))
  {
    if dst in taken {
      SearchAsWrittenFree(taken, dst, 1, |taken|);
    }
  }

  lemma {:induction false} ProbeErrorsNeverEnd(taken: set<Path>, dst: Path, i: nat, fuel: nat)
    ensures SearchAsWritten(taken, p => true, dst, i, fuel) == None
    decreases fuel
  {
    if fuel > 0 {
      ProbeErrorsNeverEnd(taken, dst, i + 1, fuel - 1);
    }
  }

  /** When `dstDir` is a regular file, every `Lstat` under it fails with
      ENOTDIR: the search as written never ends, however many probes it is
      given. */
  lemma AsWrittenSpinsOnProbeError(taken: set<Path>, dst: Path, fuel: nat)
    ensures ChooseAsWritten(taken, p => true, dst, fuel) == None
  {
    ProbeErrorsNeverEnd(taken, dst, 1, fuel);
  }

  /** How a search that stops on a probe error ends: a free name, or the
      name whose probe failed. */
  datatype Outcome = Chosen(path: Path) | Failed(path: Path)

  /** The search as intended: a probe error ends it with that error. */
  function SearchCorrected(taken: set<Path>, failing: Path -> bool, dst: Path, i: nat): (o: Outcome)
    requires i >= 1 && dst in taken
    requires forall m :: 1 <= m < i ==> Suffixed(dst, m) in taken
    ensures o.Chosen? ==> o.path !in taken && !failing(o.path)
    ensures o.Failed? ==> failing(o.path)
    decreases |taken| - i
  {
    SearchBound(taken, dst, i);
    var p := Suffixed(dst, i);
    match ProbeOf(taken, failing, p)
    case Missing => Chosen(p)
    case ProbeError => Failed(p)
    case Present =>
      SearchBound(taken, dst, i + 1);
      SearchCorrected(taken, failing, dst, i + 1)
  }

  function ChooseCorrected(taken: set<Path>, failing: Path -> bool, dst: Path): (o: Outcome)
    ensures o.Chosen? ==> o.path !in taken && !failing(o.path)
    ensures o.Failed? ==> failing(o.path)
  {
    match ProbeOf(taken, failing, dst)
    case Missing => Chosen(dst)
    case ProbeError => Failed(dst)
    case Present => SearchCorrected(taken, failing, dst, 1)
  }

  lemma {:induction false} SearchCorrectedFree(taken: set<Path>, dst: Path, i: nat)
    requires i >= 1 && dst in taken
    requires forall m :: 1 <= m < i ==> Suffixed(dst, m) in taken
    ensures SearchCorrected(taken, p => false, dst, i) == Chosen(Suffixed(dst, FreeIndexFrom(taken, dst, i)))
    decreases |taken| - i
  {
    SearchBound(taken, dst, i);
    if Suffixed(dst, i) in taken {
      SearchBound(taken, dst, i + 1);
      SearchCorrectedFree(taken, dst, i + 1);
    }
  }

  /** The corrected search always ends. Without probe errors it picks the
      root `DestinationFor` gives, which is the one the rest of the model
      uses. When `dst` itself cannot be probed, it reports that error. */
  lemma CorrectedSearch(taken: set<Path>, dst: Path)
    ensures ChooseCorrected(taken, p => false, dst) == Chosen(DestinationFor(taken, dst))
    ensures ChooseCorrected(taken, p => true, dst) == Failed(dst)
  {
    if dst in taken {
      SearchCorrectedFree(taken, dst, 1);
    }
  }
}

=== FILE: paths.dfy ===
/** Path strings and the few path operations the copier relies on:
    joining, the last element, the path relative to a tree root, and the
    `<dst>.~<i>~` candidate names tried when a destination is taken.
    Paths are assumed clean (no trailing separator, no `.` or `..`
    elements, no doubled separators), so no cleaning is modelled. */
module Paths {
  import opened Common

  type Path = string

  const Separator: char := '/'

  /** The decimal text of a digit value. */
  function Digit(d: nat): (c: char)
    requires d < 10
    ensures '0' <= c <= '9'
  {
    (48 + d) as char
  }

  predicate IsDigits(s: string)
  {
    forall i :: 0 <= i < |s| ==> '0' <= s[i] <= '9'
  }

  /** Decimal rendering of `n` without leading zeros, as `%d` prints it. */
  function Decimal(n: nat): (s: string)
    ensures |s| >= 1 && IsDigits(s)
  {
    if n < 10 then [Digit(n)] else Decimal(n / 10) + [Digit(n % 10)]
  }

  /** Reads back a string of decimal digits; the inverse of `Decimal`. */
  function DecimalValue(s: string): nat
    requires IsDigits(s)
  {
    if s == [] then 0
    else DecimalValue(s[..|s| - 1]) * 10 + ((s[|s| - 1] as int) - 48)
  }

  lemma {:induction false} DecimalRoundTrip(n: nat)
    ensures DecimalValue(Decimal(n)) == n
  {
    if n >= 10 {
      var s := Decimal(n);
      assert s[..|s| - 1] == Decimal(n / 10);
      DecimalRoundTrip(n / 10);
    }
  }

  lemma DecimalInjective(a: nat, b: nat)
    requires Decimal(a) == Decimal(b)
    ensures a == b
  {
    DecimalRoundTrip(a);
    DecimalRoundTrip(b);
  }

  /** The `i`-th alternative name `<dst>.~<i>~` for a taken destination. */
  function Suffixed(dst: Path, i: nat): (p: Path)
    ensures |p| > |dst| + 3 && p[..|dst|] == dst
  {
    dst + ".~" + Decimal(i) + "~"
  }

  /** Distinct indices give distinct names, so the search cannot revisit a name. */
  lemma SuffixedInjective(dst: Path, i: nat, j: nat)
    requires Suffixed(dst, i) == Suffixed(dst, j)
    ensures i == j
  {
    var p := Suffixed(dst, i);
    assert Decimal(i) == p[|dst| + 2 .. |p| - 1];
    assert Decimal(j) == p[|dst| + 2 .. |p| - 1];
    DecimalInjective(i, j);
  }

  /** `filepath.Join` of a directory and a relative path; `.` names the
      directory itself. */
  function Join(dir: Path, rel: Path): Path
  {
    if rel == "." then dir
    else if dir == "" then rel
    else if dir == [Separator] then dir + rel
    else dir + [Separator] + rel
  }

  function TrimTrailingSeparators(p: Path): (q: Path)
    ensures |q| <= |p| && q == p[..|q|]
    ensures q == [] || q[|q| - 1] != Separator
  {
    if p != [] && p[|p| - 1] == Separator then TrimTrailingSeparators(p[..|p| - 1]) else p
  }

  /** The text after the last separator. */
  function LastElement(p: Path): (e: Path)
    ensures Separator !in e
    ensures |e| <= |p| && e == p[|p| - |e|..]
    ensures |e| < |p| ==> p[|p| - |e| - 1] == Separator
  {
    if p == [] || p[|p| - 1] == Separator then []
    else LastElement(p[..|p| - 1]) + [p[|p| - 1]]
  }

  /** `filepath.Base`: `.` for the empty path, `/` for a path of separators
      only, otherwise the last element after trailing separators are dropped. */
  function Base(p: Path): Path
  {
    if p == "" then "."
    else
      var q := TrimTrailingSeparators(p);
      if q == "" then [Separator] else LastElement(q)
  }

  /** `filepath.Rel` for a path at or under `root`; any other path is an
      error (`None`). Below `/` the relative path is what follows the
      leading separator; a trailing separator names the root itself. */
  function Rel(root: Path, path: Path): Option<Path>
  {
    if path == root then Some(".")
    else if root == [Separator] then
      if |path| > 1 && path[0] == Separator then Some(path[1..]) else None
    else if |root| < |path| && path[..|root|] == root && path[|root|] == Separator
    then (if |path| == |root| + 1 then Some(".") else Some(path[|root| + 1..]))
    else None
  }

  /** `p` lies in the tree rooted at `root`: it is the root or below it. */
  predicate Under(root: Path, p: Path)
  {
    Rel(root, p).Some?
  }

  /** The directory holding `p` (`filepath.Dir`): `/` for a path directly
      below it; `None` for `/` itself and for a path with no separator,
      whose directory is the working directory. */
  function Parent(p: Path): (d: Option<Path>)
    ensures d.Some? ==> |d.value| < |p|
  {
    var e := LastElement(p);
    if |e| == |p| || p == [Separator] then None
    else if |e| + 1 == |p| then Some([Separator])
    else Some(p[..|p| - |e| - 1])
  }

  /** Everything joined onto a root lies in its tree. */
  lemma JoinUnder(root: Path, rel: Path)
    requires root != ""
    ensures Under(root, Join(root, rel))
  {
    var p := Join(root, rel);
    if rel != "." && root != [Separator] {
      assert p[..|root|] == root && p[|root|] == Separator;
    } else if rel != "." && rel != "" {
      assert p[0] == Separator && |p| > 1;
    }
  }

  /** The last element stops before any separator. */
  lemma LastElementAfter(p: Path, k: nat)
    requires k < |p| && p[k] == Separator
    ensures |LastElement(p)| <= |p| - k - 1
  {
  }

  /** The directory of a path strictly below `root` is still in the tree. */
  lemma ParentUnder(root: Path, p: Path)
    requires root != "" && Under(root, p) && p != root
    ensures Parent(p).Some? && Under(root, Parent(p).value)
  {
    var e := LastElement(p);
    if root == [Separator] {
      LastElementAfter(p, 0);
      if |e| + 1 != |p| {
        var d := p[..|p| - |e| - 1];
        assert d[0] == Separator;
        if d != root {
          assert |d| > 1;
        }
      }
    } else {
      LastElementAfter(p, |root|);
      var d := p[..|p| - |e| - 1];
      assert |e| + 1 < |p|;
      if |d| == |root| {
        assert d == p[..|root|];
      } else {
        assert d[..|root|] == p[..|root|] && d[|root|] == p[|root|];
      }
    }
  }

  /** Joining the relative path back onto the root gives the walked path. */
  lemma RelJoinRoundTrip(root: Path, path: Path, rel: Path)
    requires root != ""
    requires Rel(root, path) == Some(rel)
    requires rel == "." ==> path == root
    ensures Join(root, rel) == path
  {
    if path != root && root == [Separator] {
      assert path == [path[0]] + path[1..];
    } else if path != root {
      assert path == path[..|root|] + [Separator] + path[|root| + 1..];
    }
  }

  /** A relative path is never empty: `.` names the root itself. */
  lemma RelNonEmpty(root: Path, path: Path)
    requires Rel(root, path).Some?
    ensures Rel(root, path).value != ""
  {
  }

  /** Distinct entries of one tree land on distinct destinations under any
      destination root. */
  lemma DestinationsDistinct(root: Path, dstRoot: Path, p1: Path, p2: Path, r1: Path, r2: Path)
    requires root != "" && dstRoot != ""
    requires Rel(root, p1) == Some(r1) && (r1 == "." ==> p1 == root)
    requires Rel(root, p2) == Some(r2) && (r2 == "." ==> p2 == root)
    requires p1 != p2
    ensures Join(dstRoot, r1) != Join(dstRoot, r2)
  {
    RelJoinRoundTrip(root, p1, r1);
    RelJoinRoundTrip(root, p2, r2);
    RelNonEmpty(root, p1);
    RelNonEmpty(root, p2);
    assert r1 != r2;
    var k := if dstRoot == [Separator] then 1 else |dstRoot| + 1;
    if r1 != "." && r2 != "." {
      assert Join(dstRoot, r1)[k..] == r1;
      assert Join(dstRoot, r2)[k..] == r2;
    } else if r1 == "." {
      assert |Join(dstRoot, r2)| > |dstRoot|;
    } else {
      assert |Join(dstRoot, r1)| > |dstRoot|;
    }
  }

  /** A path lies in the tree of its directory. */
  lemma ParentContains(p: Path)
    requires Parent(p).Some?
    ensures Under(Parent(p).value, p)
  {
    var e := LastElement(p);
    var d := Parent(p).value;
    if d != [Separator] {
      assert p[..|d|] == d && p[|d|] == Separator;
    }
  }

  /** A tree inside a tree lies in the outer tree. */
  lemma UnderTransitive(a: Path, b: Path, c: Path)
    requires Under(a, b) && Under(b, c)
    ensures Under(a, c)
  {
    if a != b && b != c {
      if a == [Separator] {
        assert c[0] == b[0];
      } else if b == [Separator] {
        assert a == "";
      } else {
        assert c[..|a|] == b[..|a|];
      }
    }
  }
}

=== FILE: sizescan.dfy ===
/** `copySize`: the total of `Size()` over every entry walked in every
    source, directories and symlinks included. Strict: the first missing
    source or walk error ends the scan with the total summed so far. */
module SizeScan {
  import opened Common
  import opened Paths
  import opened FileSystem

  datatype SizeError = SourceNotFound(src: Path) | WalkError(path: Path)

  /** The `(total, err)` pair `copySize` returns. */
  datatype SizeResult = SizeResult(total: int, err: Option<SizeError>)

  /** The walk callback over one tree, adding to the running `total`; the
      first error aborts the walk. */
  function WalkTotal(items: seq<WalkItem>, total: int): SizeResult
  {
    if items == [] then SizeResult(total, None)
    else match items[0]
      case WalkFailure(p) => SizeResult(total, Some(WalkError(p)))
      case Visit(_, info) => WalkTotal(items[1..], total + info.size)
  }

  /** The loop over the sources, `total` being what is summed so far. */
  function SizeFrom(fs: FS, walk: Walker, srcs: seq<Path>, total: int): SizeResult
  {
    if srcs == [] then SizeResult(total, None)
    else if srcs[0] !in fs then SizeResult(total, Some(SourceNotFound(srcs[0])))
    else
      var w := WalkTotal(walk(srcs[0]), total);
      if w.err.Some? then w else SizeFrom(fs, walk, srcs[1..], w.total)
  }

  function CopySize(fs: FS, walk: Walker, srcs: seq<Path>): SizeResult
  {
    SizeFrom(fs, walk, srcs, 0)
  }

  /** Reference definitions: the walk reports no error, and the sizes it
      reports add up to a total. */
  predicate Clean(items: seq<WalkItem>)
  {
    forall i :: 0 <= i < |items| ==> items[i].Visit?
  }

  function TreeSize(items: seq<WalkItem>): nat
  {
    if items == [] then 0
    else (if items[0].Visit? then items[0].info.size else 0) + TreeSize(items[1..])
  }

  function TreesSize(walk: Walker, srcs: seq<Path>): nat
  {
    if srcs == [] then 0 else TreeSize(walk(srcs[0])) + TreesSize(walk, srcs[1..])
  }

  /** Every source exists and its walk is clean. */
  predicate AllPresent(fs: FS, walk: Walker, srcs: seq<Path>)
  {
    forall j :: 0 <= j < |srcs| ==> srcs[j] in fs && Clean(walk(srcs[j]))
  }

  /** A clean walk adds the size of every entry and reports no error; and a
      walk that reports no error was clean. */
  lemma {:induction false} WalkTotalClean(items: seq<WalkItem>, total: int)
    ensures WalkTotal(items, total).err == None <==> Clean(items)
    ensures Clean(items) ==> WalkTotal(items, total) == SizeResult(total + TreeSize(items), None)
  {
    if items != [] {
      WalkTotalClean(items[1..], total + (if items[0].Visit? then items[0].info.size else 0));
      if items[0].Visit? && Clean(items[1..]) {
        assert Clean(items);
      }
    }
  }

  /** A walk whose first error is at index `k` returns the sizes before it. */
  lemma {:induction false} WalkTotalStops(items: seq<WalkItem>, total: int, k: nat)
    requires k < |items| && items[k].WalkFailure? && Clean(items[..k])
    ensures WalkTotal(items, total) == SizeResult(total + TreeSize(items[..k]), Some(WalkError(items[k].path)))
  {
    if k > 0 {
      assert items[0] == items[..k][0];
      assert items[1..][..k - 1] == items[..k][1..];
      WalkTotalStops(items[1..], total + items[0].info.size, k - 1);
    }
  }

  /** Sources that exist and walk cleanly only add their sizes. */
  lemma {:induction false} SizeFromSkips(fs: FS, walk: Walker, srcs: seq<Path>, total: int, i: nat)
    requires i <= |srcs| && AllPresent(fs, walk, srcs[..i])
    ensures SizeFrom(fs, walk, srcs, total) == SizeFrom(fs, walk, srcs[i..], total + TreesSize(walk, srcs[..i]))
  {
    if i > 0 {
      assert srcs[0] == srcs[..i][0];
      WalkTotalClean(walk(srcs[0]), total);
      assert srcs[1..][..i - 1] == srcs[..i][1..];
      assert srcs[1..][i - 1..] == srcs[i..];
      SizeFromSkips(fs, walk, srcs[1..], total + TreeSize(walk(srcs[0])), i - 1);
    }
  }

  /** Success exactly when every source exists and walks cleanly, and then
      the total is the size of every walked entry of every source. */
  lemma {:induction false} CopySizeSucceedsIff(fs: FS, walk: Walker, srcs: seq<Path>)
    ensures CopySize(fs, walk, srcs).err == None <==> AllPresent(fs, walk, srcs)
    ensures AllPresent(fs, walk, srcs) ==> CopySize(fs, walk, srcs).total == TreesSize(walk, srcs)
  {
    if AllPresent(fs, walk, srcs) {
      SizeFromSkips(fs, walk, srcs, 0, |srcs|);
      assert srcs[..|srcs|] == srcs;
    } else {
      var i :| 0 <= i < |srcs| && !(srcs[i] in fs && Clean(walk(srcs[i])));
      FirstProblem(fs, walk, srcs, i);
    }
  }

  /** Some source is missing or walks with an error: the scan fails. */
  lemma {:induction false} FirstProblem(fs: FS, walk: Walker, srcs: seq<Path>, i: nat)
    requires i < |srcs| && !(srcs[i] in fs && Clean(walk(srcs[i])))
    ensures CopySize(fs, walk, srcs).err.Some?
    decreases i
  {
    if AllPresent(fs, walk, srcs[..i]) {
      SizeFromSkips(fs, walk, srcs, 0, i);
      WalkTotalClean(walk(srcs[i]), TreesSize(walk, srcs[..i]));
    } else {
      var j :| 0 <= j < i && !(srcs[..i][j] in fs && Clean(walk(srcs[..i][j])));
      FirstProblem(fs, walk, srcs, j);
    }
  }

  /** A missing source ends the scan with an error naming it, after the
      sizes of the sources before it only. */
  lemma MissingSource(fs: FS, walk: Walker, srcs: seq<Path>, i: nat)
    requires i < |srcs| && srcs[i] !in fs
    requires AllPresent(fs, walk, srcs[..i])
    ensures CopySize(fs, walk, srcs) == SizeResult(TreesSize(walk, srcs[..i]), Some(SourceNotFound(srcs[i])))
  {
    SizeFromSkips(fs, walk, srcs, 0, i);
  }

  /** The first walk error ends the scan with the partial total: the sources
      before, and the entries of this source before the error. */
  lemma WalkErrorPartial(fs: FS, walk: Walker, srcs: seq<Path>, i: nat, k: nat)
    requires i < |srcs| && srcs[i] in fs
    requires AllPresent(fs, walk, srcs[..i])
    requires k < |walk(srcs[i])| && walk(srcs[i])[k].WalkFailure? && Clean(walk(srcs[i])[..k])
    ensures CopySize(fs, walk, srcs) ==
              SizeResult(TreesSize(walk, srcs[..i]) + TreeSize(walk(srcs[i])[..k]),
                         Some(WalkError(walk(srcs[i])[k].path)))
  {
    SizeFromSkips(fs, walk, srcs, 0, i);
    WalkTotalStops(walk(srcs[i]), TreesSize(walk, srcs[..i]), k);
  }

  /** When the walks are those of `fs`, a source that does not exist has
      a walk that is not clean: its one callback is the `Lstat` error. */
  lemma MissingWalkUnclean(fs: FS, walk: Walker, src: Path)
    requires WalkFits(fs, walk)
    ensures src !in fs ==> !Clean(walk(src))
  {
    if src !in fs {
      assert walk(src)[0] == WalkFailure(src);
    }
  }
}

=== FILE: strategy.dfy ===
/** The fast-path selection of `iocopyKnockoff`: the capability of the
    source handle is consulted first, then that of the destination handle,
    and with neither the sentinel `-1` asks the caller for its own loop. */
module Strategy {
  import opened FileSystem

  /** The `(written, err)` pair of a bulk transfer; `failed` is a non-nil error. */
  datatype Transfer = Transfer(written: int, failed: bool)

  /** `(-1, nil)`: no fast path, which is not an error. */
  const NoFastPath: Transfer := Transfer(-1, false)

  /** `viaWriterTo` and `viaReaderFrom` are what `WriteTo` and `ReadFrom`
      would return; their internals are foreign. */
  function Knockoff(caps: Caps, viaWriterTo: Transfer, viaReaderFrom: Transfer): (r: Transfer)
    ensures caps.writerTo ==> r == viaWriterTo
    ensures !caps.writerTo && caps.readerFrom ==> r == viaReaderFrom
    ensures r.failed ==> caps.writerTo || caps.readerFrom
    ensures !caps.writerTo && !caps.readerFrom ==> r == NoFastPath
    ensures viaWriterTo.written >= 0 && viaReaderFrom.written >= 0 ==>
              (r.written == -1 <==> !caps.writerTo && !caps.readerFrom)
  {
    if caps.writerTo then viaWriterTo
    else if caps.readerFrom then viaReaderFrom
    else NoFastPath
  }
}

=== FILE: treecopy.dfy ===
/** `copyAll`: for each source, a collision-free destination root, then a
    walk of the source tree whose callback dispatches every entry to
    directory creation, symlink re-creation or `copyFile`. The callback
    never stops the walk: each failure becomes one value on the error
    stream, and the error stream is closed once, after the last source.

    The producer goroutine is sequential, so it is modelled as a function
    from the filesystem to the final filesystem and the two streams. */
module TreeCopy {
  import opened Common
  import opened Paths
  import opened FileSystem
  import opened FileCopy
  import opened Naming
  import opened SizeScan

  /** The prefix the source puts on each error: `walk:`, `relative:`,
      `mkdir:`, `symlink:` or `copy:` with the cause `copyFile` returned. */
  datatype Tag = WalkTag | RelativeTag | MkdirTag | SymlinkTag | CopyTag(cause: FileError)

  /** One value sent on `errs`, with the walked path it concerns. */
  datatype ErrorEvent = ErrorEvent(tag: Tag, path: Path)

  /** What a reader of `errs` sees: error values, then the close. */
  datatype Signal = Error(event: ErrorEvent) | Closed

  /** The producer's state: the filesystem and what it has sent so far. */
  datatype Run = Run(fs: FS, progress: seq<nat>, errors: seq<ErrorEvent>)

  function Report(run: Run, tag: Tag, p: Path): Run
  {
    run.(errors := run.errors + [ErrorEvent(tag, p)])
  }

  /** The number of errors a run gained over an earlier one. */
  function Added(before: Run, after: Run): int
  {
    |after.errors| - |before.errors|
  }

  /** `a` extends `b`: nothing sent is ever taken back. */
  predicate Extends(b: Run, a: Run)
  {
    && |b.progress| <= |a.progress| && a.progress[..|b.progress|] == b.progress
    && |b.errors| <= |a.errors| && a.errors[..|b.errors|] == b.errors
  }

  lemma ExtendsTransitive(a: Run, b: Run, c: Run)
    requires Extends(a, b) && Extends(b, c)
    ensures Extends(a, c)
  {
    assert c.progress[..|a.progress|] == c.progress[..|b.progress|][..|a.progress|];
    assert c.errors[..|a.errors|] == c.errors[..|b.errors|][..|a.errors|];
  }

  /** A directory entry: `os.MkdirAll(target, mode)`, reported as `mkdir:`
      when it fails; its size is pushed either way. Directories missing
      above the target are made too, with the same mode, and stay when the
      target itself cannot be made. */
  function MakeDir(run: Run, env: Env, p: Path, target: Path, info: Info): (r: Run)
    ensures r.progress == run.progress + [info.size]
    ensures |r.errors| == |run.errors| <==> MkdirAll(run.fs, env, target, info.mode).ok
    // what MkdirAll leaves stays, whether or not it failed
    ensures r.fs == MkdirAll(run.fs, env, target, info.mode).fs
    ensures Keeps(run.fs, r.fs) && MadeAbove(run.fs, r.fs, target, info.mode)
    ensures target in run.fs ==> r.fs == run.fs
    ensures if |r.errors| == |run.errors|
            then && r.errors == run.errors
                 && target in r.fs && r.fs[target].Dir?
                 && (target !in run.fs ==> r.fs[target] == Dir(NewDirSize, info.mode))
            else && r.errors == run.errors + [ErrorEvent(MkdirTag, p)]
                 && (target !in run.fs ==> target !in r.fs)
  {
    var pushed := run.(progress := run.progress + [info.size]);
    var made := MkdirAll(run.fs, env, target, info.mode);
    if made.ok then pushed.(fs := made.fs) else Report(pushed.(fs := made.fs), MkdirTag, p)
  }

  /** A symlink entry: `os.Readlink` then `os.Symlink` at the target, both
      reported as `symlink:`; its size is pushed either way. */
  function MakeLink(run: Run, env: Env, p: Path, target: Path, info: Info): (r: Run)
    ensures r.progress == run.progress + [info.size]
    ensures |r.errors| == |run.errors| <==>
              && Readlink(run.fs, env, p).Some?
              && MakeSymlink(run.fs, env, Readlink(run.fs, env, p).value, target).Some?
    ensures if |r.errors| == |run.errors|
            then r.errors == run.errors && p in run.fs && run.fs[p].Symlink?
                 && r.fs == run.fs[target := Symlink(run.fs[p].target, LinkMode)]
            else r.fs == run.fs && r.errors == run.errors + [ErrorEvent(SymlinkTag, p)]
  {
    var pushed := run.(progress := run.progress + [info.size]);
    match Readlink(run.fs, env, p)
    case None => Report(pushed, SymlinkTag, p)
    case Some(link) =>
      match MakeSymlink(run.fs, env, link, target)
      case None => Report(pushed, SymlinkTag, p)
      case Some(fs') => pushed.(fs := fs')
  }

  /** A regular entry: `copyFile`, whose error is reported as `copy:` with
      its cause; the events it pushed stay on `nums`. */
  function CopyRegular(run: Run, env: Env, p: Path, target: Path, info: Info): (r: Run)
    ensures var c := CopyFile(run.fs, env, p, target, info);
            && r.fs == c.fs && r.progress == run.progress + c.progress
            && r.errors == run.errors + (if c.err.Some? then [ErrorEvent(CopyTag(c.err.value), p)] else [])
    ensures |r.errors| == |run.errors| ==>
              && p in run.fs && run.fs[p].File?
              && r.fs == run.fs[target := File(run.fs[p].data, info.mode)]
              && Sum(r.progress[|run.progress|..]) == |run.fs[p].data|
  {
    var c := CopyFile(run.fs, env, p, target, info);
    var copied := Run(c.fs, run.progress + c.progress, run.errors);
    assert copied.progress[|run.progress|..] == c.progress;
    if c.err.Some? then Report(copied, CopyTag(c.err.value), p) else copied
  }

  /** The walk callback for one entry of the tree rooted at `src`, copied
      under `root`. */
  function Callback(run: Run, env: Env, src: Path, root: Path, item: WalkItem): (r: Run)
    ensures Extends(run, r) && |r.errors| <= |run.errors| + 1
    // a walk error or an entry outside the tree is reported and skipped
    ensures item.WalkFailure? ==>
              r == run.(errors := run.errors + [ErrorEvent(WalkTag, item.path)])
    ensures item.Visit? && Rel(src, item.path).None? ==>
              r == run.(errors := run.errors + [ErrorEvent(RelativeTag, item.path)])
    // otherwise only the entry's destination Join(root, Rel(src, path)) can
    // change, and for a directory, missing directories above it can be made
    ensures item.Visit? && Rel(src, item.path).Some? ==>
              |r.errors| == |run.errors| + 1 ==> r.errors[|run.errors|].path == item.path
    ensures item.Visit? && Rel(src, item.path).Some? && item.info.kind != Directory ==>
              var target := Join(root, Rel(src, item.path).value);
              r.fs - {target} == run.fs - {target}
    // directories and symlinks push their size whatever happens
    ensures item.Visit? && Rel(src, item.path).Some? && item.info.kind != Regular ==>
              r.progress == run.progress + [item.info.size]
    ensures item.Visit? && Rel(src, item.path).Some? && item.info.kind == Directory ==>
              var target := Join(root, Rel(src, item.path).value);
              && r.fs == MkdirAll(run.fs, env, target, item.info.mode).fs
              && Keeps(run.fs, r.fs) && MadeAbove(run.fs, r.fs, target, item.info.mode)
              && (target in run.fs ==> r.fs == run.fs)
              && if |r.errors| == |run.errors|
                 then && target in r.fs && r.fs[target].Dir?
                      && (target !in run.fs ==> r.fs[target] == Dir(NewDirSize, item.info.mode))
                 else && r.errors[|run.errors|].tag == MkdirTag
                      && (target !in run.fs ==> target !in r.fs)
    ensures item.Visit? && Rel(src, item.path).Some? && item.info.kind == Link ==>
              var target := Join(root, Rel(src, item.path).value);
              if |r.errors| == |run.errors|
              then item.path in run.fs && run.fs[item.path].Symlink?
                   && r.fs == run.fs[target := Symlink(run.fs[item.path].target, LinkMode)]
              else r.fs == run.fs && r.errors[|run.errors|].tag == SymlinkTag
    // a regular file leaves what copyFile leaves and pushes what it pushes
    ensures item.Visit? && Rel(src, item.path).Some? && item.info.kind == Regular ==>
              var c := CopyFile(run.fs, env, item.path, Join(root, Rel(src, item.path).value), item.info);
              && r.fs == c.fs && r.progress == run.progress + c.progress
              && (c.err.Some? ==> r.errors[|run.errors|..] == [ErrorEvent(CopyTag(c.err.value), item.path)])
    ensures item.Visit? && Rel(src, item.path).Some? && item.info.kind == Regular && |r.errors| == |run.errors| ==>
              && item.path in run.fs && run.fs[item.path].File?
              && r.fs == run.fs[Join(root, Rel(src, item.path).value) := File(run.fs[item.path].data, item.info.mode)]
              && Sum(r.progress[|run.progress|..]) == |run.fs[item.path].data|
    // an error is reported exactly when the step for the entry's kind fails
    ensures item.Visit? && Rel(src, item.path).Some? ==>
              var target := Join(root, Rel(src, item.path).value);
              (|r.errors| == |run.errors| + 1 <==>
                 if item.info.kind == Directory then !MkdirAll(run.fs, env, target, item.info.mode).ok
                 else if item.info.kind == Link then
                   || Readlink(run.fs, env, item.path).None?
                   || MakeSymlink(run.fs, env, Readlink(run.fs, env, item.path).value, target).None?
                 else CopyFile(run.fs, env, item.path, target, item.info).err.Some?)
  {
    match item
    case WalkFailure(p) => Report(run, WalkTag, p)
    case Visit(p, info) =>
      match Rel(src, p)
      case None => Report(run, RelativeTag, p)
      case Some(rel) =>
        var target := Join(root, rel);
        if info.kind == Directory then MakeDir(run, env, p, target, info)
        else if info.kind == Link then MakeLink(run, env, p, target, info)
        else
          assert info.kind == Regular;
          CopyRegular(run, env, p, target, info)
  }

  function WalkFailures(items: seq<WalkItem>): nat
  {
    if items == [] then 0 else (if items[0].WalkFailure? then 1 else 0) + WalkFailures(items[1..])
  }

  /** `filepath.Walk` over one tree with a callback that always returns nil:
      every entry is dispatched, whatever happened to the ones before. */
  function WalkTree(run: Run, env: Env, src: Path, root: Path, items: seq<WalkItem>): (r: Run)
    ensures Extends(run, r)
    ensures WalkFailures(items) <= Added(run, r) <= |items|
    decreases |items|
  {
    if items == [] then run
    else
      var next := Callback(run, env, src, root, items[0]);
      var r := WalkTree(next, env, src, root, items[1..]);
      ExtendsTransitive(run, next, r);
      r
  }

  /** No failure stops the walk: the run over `a + b` is the run over `b`
      started where the run over `a` ended. */
  lemma {:induction false} WalkTreeAppend(run: Run, env: Env, src: Path, root: Path, a: seq<WalkItem>, b: seq<WalkItem>)
    ensures WalkTree(run, env, src, root, a + b)
         == WalkTree(WalkTree(run, env, src, root, a), env, src, root, b)
    decreases |a|
  {
    if a != [] {
      assert (a + b)[0] == a[0] && (a + b)[1..] == a[1..] + b;
      var next := Callback(run, env, src, root, a[0]);
      assert WalkTree(run, env, src, root, a + b) == WalkTree(next, env, src, root, a[1..] + b);
      assert WalkTree(run, env, src, root, a) == WalkTree(next, env, src, root, a[1..]);
      WalkTreeAppend(next, env, src, root, a[1..], b);
    } else {
      assert a + b == b;
    }
  }

  /** The destination root of `src` given what already exists. */
  function RootFor(fs: FS, src: Path, dstDir: Path): (root: Path)
    ensures root !in fs
    ensures dstDir != "" ==> root != ""
  {
    DestinationFor(fs.Keys, Join(dstDir, Base(src)))
  }

  /** The producer's loop over the sources; each source's root is chosen
      against the filesystem as the earlier sources left it. */
  function CopySources(run: Run, env: Env, walk: Walker, srcs: seq<Path>, dstDir: Path): (r: Run)
    ensures Extends(run, r)
    ensures Added(run, r) <= TotalItems(walk, srcs)
    decreases |srcs|
  {
    if srcs == [] then run
    else
      var root := RootFor(run.fs, srcs[0], dstDir);
      var walked := WalkTree(run, env, srcs[0], root, walk(srcs[0]));
      var r := CopySources(walked, env, walk, srcs[1..], dstDir);
      ExtendsTransitive(run, walked, r);
      r
  }

  function TotalItems(walk: Walker, srcs: seq<Path>): nat
  {
    if srcs == [] then 0 else |walk(srcs[0])| + TotalItems(walk, srcs[1..])
  }

  /** The final filesystem, everything sent on `nums`, and everything a
      reader of `errs` sees up to and including the close. */
  datatype Streams = Streams(fs: FS, nums: seq<nat>, errs: seq<Signal>)

  function Signals(errors: seq<ErrorEvent>): (s: seq<Signal>)
    ensures |s| == |errors|
    ensures forall i :: 0 <= i < |s| ==> s[i] == Error(errors[i])
  {
    if errors == [] then [] else [Error(errors[0])] + Signals(errors[1..])
  }

  function CopyAll(fs: FS, env: Env, walk: Walker, srcs: seq<Path>, dstDir: Path): (r: Streams)
    // the error stream is closed exactly once, after everything else
    ensures |r.errs| >= 1 && r.errs[|r.errs| - 1] == Closed
    ensures forall i :: 0 <= i < |r.errs| - 1 ==> r.errs[i].Error?
    // at most one error per walked entry
    ensures |r.errs| - 1 <= TotalItems(walk, srcs)
  {
    var run := CopySources(Run(fs, [], []), env, walk, srcs, dstDir);
    Streams(run.fs, run.progress, Signals(run.errors) + [Closed])
  }

  /** Along a walk, each regular file about to be copied holds as many
      bytes as the walk reported for it (nothing changed it in between). */
  ghost predicate SizesAgree(run: Run, env: Env, src: Path, root: Path, items: seq<WalkItem>)
    decreases |items|
  {
    items != [] ==>
      && (items[0].Visit? && items[0].info.kind == Regular
          && items[0].path in run.fs && run.fs[items[0].path].File?
          ==> |run.fs[items[0].path].data| == items[0].info.size)
      && SizesAgree(Callback(run, env, src, root, items[0]), env, src, root, items[1..])
  }

  /** Progress gained over two extensions in a row adds up. */
  lemma SumGained(a: Run, b: Run, c: Run)
    requires Extends(a, b) && Extends(b, c)
    ensures |a.progress| <= |c.progress|
    ensures Sum(c.progress[|a.progress|..])
         == Sum(b.progress[|a.progress|..]) + Sum(c.progress[|b.progress|..])
  {
    assert c.progress[|a.progress|..] == b.progress[|a.progress|..] + c.progress[|b.progress|..];
    SumAppend(b.progress[|a.progress|..], c.progress[|b.progress|..]);
  }

  lemma {:induction false} NoWalkFailures(items: seq<WalkItem>)
    requires WalkFailures(items) == 0
    ensures Clean(items)
  {
    if items != [] {
      NoWalkFailures(items[1..]);
      assert forall i :: 1 <= i < |items| ==> items[i] == items[1..][i - 1];
    }
  }

  /** A tree copied without any error pushes, in all, the sizes the walk
      reported: the same total the size scan adds up for that tree. */
  lemma {:induction false} WalkTreeParity(run: Run, env: Env, src: Path, root: Path, items: seq<WalkItem>)
    requires SizesAgree(run, env, src, root, items)
    requires Added(run, WalkTree(run, env, src, root, items)) == 0
    ensures var r := WalkTree(run, env, src, root, items);
      Sum(r.progress[|run.progress|..]) == TreeSize(items)
    decreases |items|
  {
    var r := WalkTree(run, env, src, root, items);
    if items == [] {
      assert r.progress[|run.progress|..] == [];
    } else {
      var next := Callback(run, env, src, root, items[0]);
      assert r == WalkTree(next, env, src, root, items[1..]);
      WalkTreeParity(next, env, src, root, items[1..]);
      assert Sum(next.progress[|run.progress|..]) == items[0].info.size;
      SumGained(run, next, r);
    }
  }

  /** `SizesAgree` for every source in turn, each from its chosen root. */
  ghost predicate SizesAgreeAll(run: Run, env: Env, walk: Walker, srcs: seq<Path>, dstDir: Path)
    decreases |srcs|
  {
    srcs != [] ==>
      var root := RootFor(run.fs, srcs[0], dstDir);
      && SizesAgree(run, env, srcs[0], root, walk(srcs[0]))
      && SizesAgreeAll(WalkTree(run, env, srcs[0], root, walk(srcs[0])), env, walk, srcs[1..], dstDir)
  }

  /** A copy of several trees that reports no error met no walk failure. */
  lemma {:induction false} CopySourcesClean(run: Run, env: Env, walk: Walker, srcs: seq<Path>, dstDir: Path)
    requires Added(run, CopySources(run, env, walk, srcs, dstDir)) == 0
    ensures forall j :: 0 <= j < |srcs| ==> Clean(walk(srcs[j]))
    decreases |srcs|
  {
    if srcs != [] {
      var root := RootFor(run.fs, srcs[0], dstDir);
      var walked := WalkTree(run, env, srcs[0], root, walk(srcs[0]));
      var r := CopySources(run, env, walk, srcs, dstDir);
      assert r == CopySources(walked, env, walk, srcs[1..], dstDir);
      assert Added(run, walked) == 0 && Added(walked, r) == 0;
      CopySourcesClean(walked, env, walk, srcs[1..], dstDir);
      forall j | 0 <= j < |srcs|
        ensures Clean(walk(srcs[j]))
      {
        if j == 0 {
          NoWalkFailures(walk(srcs[0]));
        } else {
          assert srcs[j] == srcs[1..][j - 1];
        }
      }
    }
  }

  /** Over all sources, a copy that reports no error pushes progress summing
      to the total of every walk, provided the sizes agree. */
  lemma {:induction false} CopySourcesParity(run: Run, env: Env, walk: Walker, srcs: seq<Path>, dstDir: Path)
    ensures var r := CopySources(run, env, walk, srcs, dstDir);
      SizesAgreeAll(run, env, walk, srcs, dstDir) && Added(run, r) == 0 ==>
        Sum(r.progress[|run.progress|..]) == TreesSize(walk, srcs)
    decreases |srcs|
  {
    var r := CopySources(run, env, walk, srcs, dstDir);
    if SizesAgreeAll(run, env, walk, srcs, dstDir) && Added(run, r) == 0 {
      if srcs == [] {
        assert r.progress[|run.progress|..] == [];
      } else {
        var root := RootFor(run.fs, srcs[0], dstDir);
        var walked := WalkTree(run, env, srcs[0], root, walk(srcs[0]));
        assert r == CopySources(walked, env, walk, srcs[1..], dstDir);
        assert Added(run, walked) == 0 && Added(walked, r) == 0;
        CopySourcesParity(walked, env, walk, srcs[1..], dstDir);
        WalkTreeParity(run, env, srcs[0], root, walk(srcs[0]));
        SumGained(run, walked, r);
      }
    }
  }

  /** The progress bar adds up: when the walks are those of `fs`, the copy
      reports no error and every file still holds what the walk saw, the
      progress events sum to exactly the total the size scan returns. A
      missing source cannot be among them: its walk fails, and the copy
      reports it. */
  lemma ProgressMatchesEstimate(fs: FS, env: Env, walk: Walker, srcs: seq<Path>, dstDir: Path)
    requires WalkFits(fs, walk)
    requires SizesAgreeAll(Run(fs, [], []), env, walk, srcs, dstDir)
    requires CopyAll(fs, env, walk, srcs, dstDir).errs == [Closed]
    ensures CopySize(fs, walk, srcs) == SizeResult(Sum(CopyAll(fs, env, walk, srcs, dstDir).nums), None)
  {
    var start := Run(fs, [], []);
    var r := CopySources(start, env, walk, srcs, dstDir);
    assert |r.errors| == 0;
    CopySourcesParity(start, env, walk, srcs, dstDir);
    CopySourcesClean(start, env, walk, srcs, dstDir);
    forall j | 0 <= j < |srcs|
      ensures srcs[j] in fs
    {
      MissingWalkUnclean(fs, walk, srcs[j]);
    }
    assert r.progress[|start.progress|..] == r.progress;
    CopySizeSucceedsIff(fs, walk, srcs);
  }
}

=== FILE: treeresult.dfy ===
/** What `copyAll` leaves on the filesystem: every path that is not the
    destination of a walked entry keeps its entry, anything new off the
    destinations is a directory above one of them, and every entry whose
    callback reported no error ends up at its destination as a directory,
    a symlink with the same target, or a file with the same bytes and the
    walked mode. */
module TreeResult {
  import opened Common
  import opened Paths
  import opened FileSystem
  import opened FileCopy
  import opened TreeCopy

  /** Going from `before` to `after` touched nothing outside `s` but to
      make directories above members of `s`. */
  ghost predicate Frame(before: FS, after: FS, s: set<Path>)
  {
    && (forall q :: q !in s && q in before ==> q in after && after[q] == before[q])
    && (forall q :: q !in s && q in after && q !in before ==> after[q].Dir? && exists t :: t in s && Under(q, t))
  }

  lemma FrameTransitive(a: FS, b: FS, c: FS, s1: set<Path>, s2: set<Path>)
    requires Frame(a, b, s1) && Frame(b, c, s2)
    ensures Frame(a, c, s1 + s2)
  {
    forall q | q !in s1 + s2 && q in c && q !in a
      ensures c[q].Dir? && exists t :: t in s1 + s2 && Under(q, t)
    {
      if q in b {
        var t :| t in s1 && Under(q, t);
        assert t in s1 + s2;
      } else {
        var t :| t in s2 && Under(q, t);
        assert t in s1 + s2;
      }
    }
  }

  /** Where the callback puts a walked entry of the tree at `src`: its
      relative path joined onto `root`; nowhere for a walk error or an entry
      outside the tree. */
  function TargetOf(src: Path, root: Path, item: WalkItem): Option<Path>
  {
    if item.Visit? && Rel(src, item.path).Some? then Some(Join(root, Rel(src, item.path).value)) else None
  }

  /** The destinations of all entries of one walk. */
  function Targets(src: Path, root: Path, items: seq<WalkItem>): set<Path>
    decreases |items|
  {
    if items == [] then {}
    else
      (if TargetOf(src, root, items[0]).Some? then {TargetOf(src, root, items[0]).value} else {})
        + Targets(src, root, items[1..])
  }

  lemma {:induction false} TargetsMember(src: Path, root: Path, items: seq<WalkItem>, t: Path)
    requires t in Targets(src, root, items)
    ensures exists k :: 0 <= k < |items| && TargetOf(src, root, items[k]) == Some(t)
    decreases |items|
  {
    if TargetOf(src, root, items[0]) != Some(t) {
      TargetsMember(src, root, items[1..], t);
      var k :| 0 <= k < |items[1..]| && TargetOf(src, root, items[1..][k]) == Some(t);
      assert items[1..][k] == items[k + 1];
    }
  }

  /** Every destination of a tree lies under the root chosen for it. */
  lemma {:induction false} TargetsUnder(src: Path, root: Path, items: seq<WalkItem>, t: Path)
    requires root != "" && t in Targets(src, root, items)
    ensures Under(root, t)
  {
    TargetsMember(src, root, items, t);
    var k :| 0 <= k < |items| && TargetOf(src, root, items[k]) == Some(t);
    JoinUnder(root, Rel(src, items[k].path).value);
  }

  lemma RemovedAlike(a: FS, b: FS, t: Path)
    requires a - {t} == b - {t}
    ensures Frame(a, b, {t})
  {
    forall q | q != t && q in a
      ensures q in b && b[q] == a[q]
    {
      assert q in a - {t};
      assert a[q] == (a - {t})[q];
    }
    forall q | q != t && q in b
      ensures q in a
    {
      assert q in b - {t};
    }
  }

  lemma MadeAboveFrame(a: FS, b: FS, t: Path, m: Mode)
    requires Keeps(a, b) && MadeAbove(a, b, t, m)
    ensures Frame(a, b, {t})
  {
    forall q | q != t && q in b && q !in a
      ensures b[q].Dir? && exists u :: u in {t} && Under(q, u)
    {
      assert Under(q, t);
    }
  }

  /** The callback changes at most the destination of its entry, and for a
      directory makes the directories missing above it. */
  lemma CallbackFrame(run: Run, env: Env, src: Path, root: Path, item: WalkItem)
    ensures Frame(run.fs, Callback(run, env, src, root, item).fs,
                  if TargetOf(src, root, item).Some? then {TargetOf(src, root, item).value} else {})
  {
    var r := Callback(run, env, src, root, item);
    if TargetOf(src, root, item).Some? {
      var t := TargetOf(src, root, item).value;
      if item.info.kind == Directory {
        MadeAboveFrame(run.fs, r.fs, t, item.info.mode);
      } else {
        RemovedAlike(run.fs, r.fs, t);
      }
    } else {
      assert r.fs == run.fs;
    }
  }

  /** A walk changes only the destinations of its entries. */
  lemma {:induction false} WalkTreeFrame(run: Run, env: Env, src: Path, root: Path, items: seq<WalkItem>)
    ensures Frame(run.fs, WalkTree(run, env, src, root, items).fs, Targets(src, root, items))
    decreases |items|
  {
    if items != [] {
      var next := Callback(run, env, src, root, items[0]);
      assert WalkTree(run, env, src, root, items) == WalkTree(next, env, src, root, items[1..]);
      CallbackFrame(run, env, src, root, items[0]);
      WalkTreeFrame(next, env, src, root, items[1..]);
      FrameTransitive(run.fs, next.fs, WalkTree(run, env, src, root, items).fs,
                      if TargetOf(src, root, items[0]).Some? then {TargetOf(src, root, items[0]).value} else {},
                      Targets(src, root, items[1..]));
    }
  }

  /** Entry `i` is dispatched to the callback with the run the entries before
      it left, and the walk goes on from there. */
  lemma WalkTreeDispatch(run: Run, env: Env, src: Path, root: Path, items: seq<WalkItem>, i: nat)
    requires i < |items|
    ensures WalkTree(run, env, src, root, items)
         == WalkTree(Callback(WalkTree(run, env, src, root, items[..i]), env, src, root, items[i]),
                     env, src, root, items[i + 1..])
  {
    assert items == items[..i] + items[i..];
    WalkTreeAppend(run, env, src, root, items[..i], items[i..]);
    assert items[i..][0] == items[i] && items[i..][1..] == items[i + 1..];
  }

  /** The walked entry `item` is in place at `target` in `fs`: a directory
      (with the walked mode if it had to be made), a symlink with the
      target the source link had, or a file with the bytes the source held
      and the walked mode; `before` is the filesystem the callback saw. */
  predicate Landed(before: FS, item: WalkItem, target: Path, fs: FS)
  {
    && item.Visit? && target in fs
    && match item.info.kind
       case Directory =>
         fs[target].Dir? && (target !in before ==> fs[target] == Dir(NewDirSize, item.info.mode))
       case Link =>
         item.path in before && before[item.path].Symlink?
         && fs[target] == Symlink(before[item.path].target, LinkMode)
       case Regular =>
         item.path in before && before[item.path].File?
         && fs[target] == File(before[item.path].data, item.info.mode)
  }

  lemma CallbackLands(run: Run, env: Env, src: Path, root: Path, item: WalkItem)
    ensures var r := Callback(run, env, src, root, item);
      TargetOf(src, root, item).Some? && Added(run, r) == 0 ==>
        Landed(run.fs, item, TargetOf(src, root, item).value, r.fs)
  {
  }

  /** An entry whose callback reported no error is still in place when the
      walk of its tree ends: no later entry of the walk has the same
      destination. */
  lemma WalkTreeLands(run: Run, env: Env, src: Path, root: Path, items: seq<WalkItem>, i: nat)
    requires src != "" && root != "" && WalkUnder(src, items) && i < |items|
    ensures var before := WalkTree(run, env, src, root, items[..i]);
      TargetOf(src, root, items[i]).Some? && Added(before, Callback(before, env, src, root, items[i])) == 0 ==>
        Landed(before.fs, items[i], TargetOf(src, root, items[i]).value, WalkTree(run, env, src, root, items).fs)
  {
    var before := WalkTree(run, env, src, root, items[..i]);
    var after := Callback(before, env, src, root, items[i]);
    var t := TargetOf(src, root, items[i]);
    if t.Some? && Added(before, after) == 0 {
      WalkTreeDispatch(run, env, src, root, items, i);
      CallbackLands(before, env, src, root, items[i]);
      var rest := items[i + 1..];
      WalkTreeFrame(after, env, src, root, rest);
      if t.value in Targets(src, root, rest) {
        TargetsMember(src, root, rest, t.value);
        var k :| 0 <= k < |rest| && TargetOf(src, root, rest[k]) == t;
        var other := items[i + 1 + k];
        assert rest[k] == other;
        DestinationsDistinct(src, root, items[i].path, other.path,
                             Rel(src, items[i].path).value, Rel(src, other.path).value);
        assert false;
      }
    }
  }

  /** The callback keeps a filesystem well-formed: it only makes entries
      in existing or newly made directories and removes nothing but files. */
  lemma CallbackWellFormed(run: Run, env: Env, src: Path, root: Path, item: WalkItem)
    requires WellFormed(run.fs)
    ensures WellFormed(Callback(run, env, src, root, item).fs)
  {
    var r := Callback(run, env, src, root, item);
    if item.Visit? && Rel(src, item.path).Some? {
      var target := Join(root, Rel(src, item.path).value);
      if item.info.kind == Directory {
        assert Grows(run.fs, r.fs);
        GrowsWellFormed(run.fs, r.fs);
      } else if item.info.kind == Link {
        if |r.errors| == |run.errors| {
          GrowsWellFormed(run.fs, r.fs);
        }
      } else {
        CopyFileWellFormed(run.fs, env, item.path, target, item.info);
      }
    }
  }

  lemma {:induction false} WalkTreeWellFormed(run: Run, env: Env, src: Path, root: Path, items: seq<WalkItem>)
    requires WellFormed(run.fs)
    ensures WellFormed(WalkTree(run, env, src, root, items).fs)
    decreases |items|
  {
    if items != [] {
      var next := Callback(run, env, src, root, items[0]);
      assert WalkTree(run, env, src, root, items) == WalkTree(next, env, src, root, items[1..]);
      CallbackWellFormed(run, env, src, root, items[0]);
      WalkTreeWellFormed(next, env, src, root, items[1..]);
    }
  }

  lemma {:induction false} CopySourcesWellFormed(run: Run, env: Env, walk: Walker, srcs: seq<Path>, dstDir: Path)
    requires WellFormed(run.fs)
    ensures WellFormed(CopySources(run, env, walk, srcs, dstDir).fs)
    decreases |srcs|
  {
    if srcs != [] {
      var root := RootFor(run.fs, srcs[0], dstDir);
      var walked := WalkTree(run, env, srcs[0], root, walk(srcs[0]));
      assert CopySources(run, env, walk, srcs, dstDir) == CopySources(walked, env, walk, srcs[1..], dstDir);
      WalkTreeWellFormed(run, env, srcs[0], root, walk(srcs[0]));
      CopySourcesWellFormed(walked, env, walk, srcs[1..], dstDir);
    }
  }

  /** The sources are copied one after the other: copying `a + b` is
      copying `b` from where copying `a` ended. */
  lemma {:induction false} CopySourcesAppend(run: Run, env: Env, walk: Walker, a: seq<Path>, b: seq<Path>, dstDir: Path)
    ensures CopySources(run, env, walk, a + b, dstDir)
         == CopySources(CopySources(run, env, walk, a, dstDir), env, walk, b, dstDir)
    decreases |a|
  {
    if a != [] {
      assert (a + b)[0] == a[0] && (a + b)[1..] == a[1..] + b;
      var root := RootFor(run.fs, a[0], dstDir);
      var walked := WalkTree(run, env, a[0], root, walk(a[0]));
      assert CopySources(run, env, walk, a + b, dstDir) == CopySources(walked, env, walk, a[1..] + b, dstDir);
      assert CopySources(run, env, walk, a, dstDir) == CopySources(walked, env, walk, a[1..], dstDir);
      CopySourcesAppend(walked, env, walk, a[1..], b, dstDir);
    } else {
      assert a + b == b;
    }
  }

  /** Every destination the copy of `srcs` writes to: each source's entries
      joined onto the root chosen for that source. */
  function AllTargets(run: Run, env: Env, walk: Walker, srcs: seq<Path>, dstDir: Path): set<Path>
    decreases |srcs|
  {
    if srcs == [] then {}
    else
      var root := RootFor(run.fs, srcs[0], dstDir);
      Targets(srcs[0], root, walk(srcs[0]))
        + AllTargets(WalkTree(run, env, srcs[0], root, walk(srcs[0])), env, walk, srcs[1..], dstDir)
  }

  lemma {:induction false} CopySourcesFrame(run: Run, env: Env, walk: Walker, srcs: seq<Path>, dstDir: Path)
    ensures Frame(run.fs, CopySources(run, env, walk, srcs, dstDir).fs, AllTargets(run, env, walk, srcs, dstDir))
    decreases |srcs|
  {
    if srcs != [] {
      var root := RootFor(run.fs, srcs[0], dstDir);
      var walked := WalkTree(run, env, srcs[0], root, walk(srcs[0]));
      assert CopySources(run, env, walk, srcs, dstDir) == CopySources(walked, env, walk, srcs[1..], dstDir);
      WalkTreeFrame(run, env, srcs[0], root, walk(srcs[0]));
      CopySourcesFrame(walked, env, walk, srcs[1..], dstDir);
      FrameTransitive(run.fs, walked.fs, CopySources(run, env, walk, srcs, dstDir).fs,
                      Targets(srcs[0], root, walk(srcs[0])), AllTargets(walked, env, walk, srcs[1..], dstDir));
    }
  }

  /** Outside the destinations of the walked entries, the copy leaves the
      filesystem as it found it: sources, the destination directory's other
      contents and everything else keep their entries, and the only new
      entries are directories above a destination. */
  lemma CopyAllFrame(fs: FS, env: Env, walk: Walker, srcs: seq<Path>, dstDir: Path)
    ensures Frame(fs, CopyAll(fs, env, walk, srcs, dstDir).fs, AllTargets(Run(fs, [], []), env, walk, srcs, dstDir))
  {
    CopySourcesFrame(Run(fs, [], []), env, walk, srcs, dstDir);
  }

  /** What exists when a source's root is chosen survives the copy of that
      and every later source: each root is new, so in a well-formed
      filesystem nothing that exists lies under it. */
  lemma {:induction false} LaterSourcesKeep(run: Run, env: Env, walk: Walker, srcs: seq<Path>, dstDir: Path, t: Path)
    requires WellFormed(run.fs) && dstDir != "" && t in run.fs
    ensures var r := CopySources(run, env, walk, srcs, dstDir);
      t in r.fs && r.fs[t] == run.fs[t]
    decreases |srcs|
  {
    if srcs != [] {
      var root := RootFor(run.fs, srcs[0], dstDir);
      var walked := WalkTree(run, env, srcs[0], root, walk(srcs[0]));
      assert CopySources(run, env, walk, srcs, dstDir) == CopySources(walked, env, walk, srcs[1..], dstDir);
      if t in Targets(srcs[0], root, walk(srcs[0])) {
        TargetsUnder(srcs[0], root, walk(srcs[0]), t);
        AncestorPresent(run.fs, root, t);
        assert false;
      }
      WalkTreeFrame(run, env, srcs[0], root, walk(srcs[0]));
      WalkTreeWellFormed(run, env, srcs[0], root, walk(srcs[0]));
      LaterSourcesKeep(walked, env, walk, srcs[1..], dstDir, t);
    }
  }

  /** The copy splits at source `j`: the sources before it, then the walk
      of its tree from a root chosen against what they left, then the rest. */
  lemma CopySourcesAt(run: Run, env: Env, walk: Walker, srcs: seq<Path>, dstDir: Path, j: nat)
    requires j < |srcs|
    ensures var pre := CopySources(run, env, walk, srcs[..j], dstDir);
      var root := RootFor(pre.fs, srcs[j], dstDir);
      CopySources(run, env, walk, srcs, dstDir)
        == CopySources(WalkTree(pre, env, srcs[j], root, walk(srcs[j])), env, walk, srcs[j + 1..], dstDir)
  {
    assert srcs == srcs[..j] + srcs[j..];
    CopySourcesAppend(run, env, walk, srcs[..j], srcs[j..], dstDir);
    assert srcs[j..][0] == srcs[j] && srcs[j..][1..] == srcs[j + 1..];
  }

  /** What `WalkFits` says about the walk of one source. */
  lemma WalkOfSource(fs: FS, walk: Walker, src: Path)
    requires WalkFits(fs, walk)
    ensures src == "" || src !in fs ==> walk(src) == [WalkFailure(src)]
    ensures src != "" && src in fs ==> WalkUnder(src, walk(src))
  {
  }

  /** The copy of all sources, run up to source `j`, entry `i`: the
      filesystem that entry's callback sees, and the root of its tree. */
  function RunUpTo(fs: FS, env: Env, walk: Walker, srcs: seq<Path>, dstDir: Path, j: nat, i: nat): (r: (Run, Path))
    requires j < |srcs| && i <= |walk(srcs[j])|
  {
    var pre := CopySources(Run(fs, [], []), env, walk, srcs[..j], dstDir);
    var root := RootFor(pre.fs, srcs[j], dstDir);
    (WalkTree(pre, env, srcs[j], root, walk(srcs[j])[..i]), root)
  }

  /** Every walked entry whose callback reported no error is in place at
      its destination when `copyAll` ends: no later entry of its tree has
      the same destination, and no later source's root has anything under
      it. */
  lemma CopyAllLands(fs: FS, env: Env, walk: Walker, srcs: seq<Path>, dstDir: Path, j: nat, i: nat)
    requires WellFormed(fs) && WalkFits(fs, walk) && dstDir != ""
    requires j < |srcs| && i < |walk(srcs[j])|
    ensures var (before, root) := RunUpTo(fs, env, walk, srcs, dstDir, j, i);
      var item := walk(srcs[j])[i];
      TargetOf(srcs[j], root, item).Some? && Added(before, Callback(before, env, srcs[j], root, item)) == 0 ==>
        Landed(before.fs, item, TargetOf(srcs[j], root, item).value, CopyAll(fs, env, walk, srcs, dstDir).fs)
  {
    var src := srcs[j];
    var items := walk(src);
    var start := Run(fs, [], []);
    var pre := CopySources(start, env, walk, srcs[..j], dstDir);
    var root := RootFor(pre.fs, src, dstDir);
    var before := WalkTree(pre, env, src, root, items[..i]);
    var t := TargetOf(src, root, items[i]);
    if t.Some? && Added(before, Callback(before, env, src, root, items[i])) == 0 {
      WalkOfSource(fs, walk, src);
      assert src != "" && src in fs;
      WalkTreeLands(pre, env, src, root, items, i);
      var walked := WalkTree(pre, env, src, root, items);
      CopySourcesWellFormed(start, env, walk, srcs[..j], dstDir);
      WalkTreeWellFormed(pre, env, src, root, items);
      LaterSourcesKeep(walked, env, walk, srcs[j + 1..], dstDir, t.value);
      CopySourcesAt(start, env, walk, srcs, dstDir, j);
    }
  }

  /** A source that cannot be walked (missing, or the empty path) gets its
      `walk:` error on the error stream, and the copy goes on. */
  lemma MissingSourceReported(fs: FS, env: Env, walk: Walker, srcs: seq<Path>, dstDir: Path, j: nat)
    requires WalkFits(fs, walk) && j < |srcs| && (srcs[j] == "" || srcs[j] !in fs)
    ensures Error(ErrorEvent(WalkTag, srcs[j])) in CopyAll(fs, env, walk, srcs, dstDir).errs
  {
    var src := srcs[j];
    var start := Run(fs, [], []);
    var pre := CopySources(start, env, walk, srcs[..j], dstDir);
    var root := RootFor(pre.fs, src, dstDir);
    WalkOfSource(fs, walk, src);
    var walked := WalkTree(pre, env, src, root, walk(src));
    WalkTreeDispatch(pre, env, src, root, walk(src), 0);
    assert walk(src)[..0] == [] && walk(src)[1..] == [];
    assert walked.errors[|pre.errors|] == ErrorEvent(WalkTag, src);
    var r := CopySources(walked, env, walk, srcs[j + 1..], dstDir);
    CopySourcesAt(start, env, walk, srcs, dstDir, j);
    assert r.errors[|pre.errors|] == ErrorEvent(WalkTag, src) by {
      assert r.errors[..|walked.errors|] == walked.errors;
    }
    assert CopyAll(fs, env, walk, srcs, dstDir).errs[|pre.errors|] == Error(ErrorEvent(WalkTag, src));
  }
}
